=== FILE: README.md ===
# Transaction normalisation of the personal-finance loader, in Dafny

This project models the transaction-normalisation layer of the two
`dataLoader.py` modules of a personal-finance tool. The tool reads a bank's
CSV export of account movements (`listamovimenti`), merges it into a
persisted Excel ledger, and categorises the expenses. `src/utils/dataLoader.py`
is the newer loader; `utils/dataLoader.py` is the legacy one. The model
covers:

- **Description cleaners.** `cleanDescription` pulls the counterparty out of
  a raw bank description with four marker rules tried in a fixed order.
  `cleanIncomeDescription` is a second pass for income lines. Both are built
  on an ASCII model of Python's `str.lower` and on faithful models of
  `str.find` (answering -1), slicing (negative bounds and clamping),
  `split('-')[0]` and `strip(' -.')`. They keep the code's raw index arithmetic on `find`'s -1.
- **Categoriser.** `mapExpensives` is a first-match keyword lookup with the
  PayPal fee overrides. `addExpensiveCategories` builds the keyword table
  from category -> keywords lists with Python dict semantics, categorises
  outflows only, and, in the newer loader, applies the one-off
  id -> category overrides.
- **Import.** Exact-line de-duplication keeps the first copy. Lines with no
  ABI reason code are dropped. The comma-decimal strings are normalised.
  The signed amount is taken from DARE/AVERE. The reason-code lookup fails
  on the first unmapped code.
- **Ledger.** The persisted rows come first and the merge keeps one row per
  (VALUTA, IMPORTO). An empty dataset is an error. Rows get their ID, are
  sorted newest first, and get their month, quarter and year periods.

Modules, one per component: `Wrappers` (Option/Result), `PyStr` (Python
string helpers), `Dedup` (keep-first de-duplication), `OrderedDict`
(insertion-ordered dict), `Cleaner`, `Transactions` (records), `Categorizer`,
`Importer`, `Ledger`.

Representation choices:

- An amount is an `Option<int>` in cents; `None` is pandas' NaN.
- A taxonomy JSON object is the sequence of the loaded dict's items, as
  `Group(name, members)` in dict order, so the names are distinct (see
  "## Left out" for a repeated key in the file).
- The md5 of a description is a function parameter `hash`.
- `float()` of a normalised decimal string is a parameter `toCents`.
- The CSV and Excel files arrive as sequences of records; the lines of all
  CSV files are concatenated, except in `Importer.ImportTransactionsAsWritten`,
  which takes the list of files read.

Where the two loaders differ, both versions are modelled:

- The newer loader gives the persisted rows IDs and re-categorises them
  before the merge. The legacy loader does neither.
- The newer loader sorts by (VALUTA, DATA); the legacy one by VALUTA only.
- Only the newer loader applies one-off overrides.

The behaviour modelled is the code's, including these quirks:

- The transfer rule keeps the `a fav:` marker text at the head of its
  result. It slices from the marker itself, not past it.
- A missing inner marker shifts the slice instead of disabling the rule.
  Examples: the causale rule starts at index 10 without `ordinante: `; a
  missing `id.mandato` or `accredito competenze` drops the last character; a
  missing `periodo bollo` keeps only the last character.
- The first income guard is a Python `and` of the bare literal
  `ordinante` with the membership test for `causale`. The literal is truthy,
  so the guard tests `causale` alone.
- Without a persisted ledger the imported rows are not de-duplicated on
  (VALUTA, IMPORTO); only the exact-line de-duplication of the import
  applies.

## Model

| member | source | states |
|---|---|---|
| PyStr.Find | src/utils/dataLoader.py:216-217 | `find` answers -1 exactly when the pattern does not occur, and otherwise the leftmost occurrence |
| PyStr.FindIsFirst | src/utils/dataLoader.py:216-217 | any leftmost occurrence is the index `find` reports |
| PyStr.Slice | src/utils/dataLoader.py:218 | a Python slice is empty when its normalised start is not below its normalised end, and otherwise exactly the subsequence between them; any slice is a substring of its input |
| PyStr.SliceIndex | src/utils/dataLoader.py:236 | a slice bound lies in 0..n; a bound in range is kept, a negative one counts from the end, one past the end clamps to n, one below -n clamps to 0 |
| PyStr.Strip | src/utils/dataLoader.py:218 | `strip(cs)` removes exactly a maximal prefix and suffix of characters in `cs`: the result has no such character at either end and is a substring of the input |
| PyStr.StripOfUnique | src/utils/dataLoader.py:218 | the stripped result is uniquely determined by the input |
| PyStr.StripIdempotent | src/utils/dataLoader.py:218 | stripping twice equals stripping once |
| PyStr.StripKeepsPrefix | src/utils/dataLoader.py:241 | a prefix whose first and last characters are not strip characters survives stripping |
| PyStr.SplitHead | src/utils/dataLoader.py:218 | `split(sep)[0]` is the prefix before the first separator and holds no separator |
| PyStr.Lower | src/utils/dataLoader.py:215 | lower-casing preserves length and maps each character by ASCII case folding |
| PyStr.RemoveAll | src/utils/dataLoader.py:148 | `replace(c, '')` deletes every `c` and keeps every other character with its count |
| PyStr.RemoveAllConcat | src/utils/dataLoader.py:148 | removal distributes over concatenation, so the kept characters stay in their input order |
| PyStr.ReplaceAllCounts | src/utils/dataLoader.py:148 | for distinct characters, `replace(a, b)` moves the count of `a` onto `b` and keeps every other count |
| PyStr.IntToStringRoundTrip | src/utils/dataLoader.py:175 | `str(code)` parses back to the code |
| PyStr.IntToStringInjective | src/utils/dataLoader.py:175 | distinct codes have distinct table keys |
| Dedup.KeepFirst | src/utils/dataLoader.py:56 | keep-first de-duplication leaves no key twice, loses no key, and keeps only input elements |
| Dedup.KeepFirstIsFirst | src/utils/dataLoader.py:56 | each kept element is the first input element with its key, and kept elements appear in order of their first occurrence |
| Dedup.KeepFirstOrder | src/utils/dataLoader.py:56 | of two kept elements, the earlier one's key first occurs earlier in the input |
| Dedup.KeepFirstIdempotentMerge | src/utils/dataLoader.py:56 | merging the same rows again after a merge changes nothing |
| OrderedDict.PutKeys | src/utils/dataLoader.py:197 | assigning an existing dict key keeps its position; a new key is appended |
| OrderedDict.PutGet | src/utils/dataLoader.py:197 | after assignment the key reads the new value and other keys are unaffected |
| OrderedDict.FromPairsLastWins | src/utils/dataLoader.py:197 | a dict built from pairs maps each key to its last pair's value |
| OrderedDict.FromPairsOrder | src/utils/dataLoader.py:197 | the dict's keys iterate in order of first assignment |
| OrderedDict.FlattenLastGroup | src/utils/dataLoader.py:197 | flattening category lists and assigning in order maps a member to the last category listing it |
| Cleaner.CleanDescription | utils/dataLoader.py:151-179 | the transfer, card-payment, recurring-credit and stamp-duty rules are tried in that order on the lowered description; none matching returns the input unchanged |
| Cleaner.TransferSlice | utils/dataLoader.py:153-155 | the text cut between the transfer markers is a substring of the description |
| Cleaner.TransferRule | utils/dataLoader.py:152-155 | the transfer result has no hyphen, no leading or trailing space, hyphen or point, and is a substring of the description |
| Cleaner.TransferKeepsMarker | utils/dataLoader.py:153-155 | the transfer result begins with `a fav:` case-insensitively, because the slice starts at the marker and `id.msg` cannot begin inside it |
| Cleaner.TransferBetweenMarkers | utils/dataLoader.py:153-155 | when `id.msg` first occurs at e after the first `a fav: ` at p, the result is the stripped text of `desc[p..e]` up to its first hyphen |
| Cleaner.TransferToEnd | utils/dataLoader.py:153-155 | when `id.msg` is missing or precedes the first `a fav: ` at p, the result is the stripped text of `desc[p..]` up to its first hyphen |
| Cleaner.TransferWithoutInnerMarker | utils/dataLoader.py:153-155 | without `a fav: ` the rule still fires and yields at most the last character, or nothing when `id.msg` is present |
| Cleaner.PosStart | utils/dataLoader.py:158-169 | the merchant offset is past `presso:`, else past `.00 `, else 12 past the first colon, else 0; a first occurrence at index 0 counts as absent |
| Cleaner.PosRule | utils/dataLoader.py:170 | the card-payment result is stripped and a substring of the description |
| Cleaner.PosRuleAfterPresso | utils/dataLoader.py:158-170 | when `presso:` first occurs past the start, the card-payment result is the stripped text after it |
| Cleaner.CreditRule | utils/dataLoader.py:172-175 | the recurring-credit result is exactly `PayPal` or mentions no `paypal` in any case |
| Cleaner.StampDutyRule | utils/dataLoader.py:177-178 | the stamp-duty result is stripped and a substring of the description |
| Cleaner.StampDutyFromMarker | utils/dataLoader.py:177-178 | with `periodo bollo` first at p, the result is exactly the stripped text from p to the end |
| Cleaner.StampDutyKeepsMarker | utils/dataLoader.py:177-178 | with `periodo bollo` present the result begins with it case-insensitively |
| Cleaner.StampDutyWithoutInnerMarker | utils/dataLoader.py:177-178 | without `periodo bollo` the result is at most the last character |
| Cleaner.Between | utils/dataLoader.py:183-189 | the shared slice-between-markers shape yields a stripped substring of the description |
| Cleaner.BetweenFound | utils/dataLoader.py:183-189 | with both markers present in order the result is the stripped text between them, past the skip |
| Cleaner.BetweenStartMissing | utils/dataLoader.py:183-189 | a missing start marker makes the slice start at the skip minus one |
| Cleaner.BetweenEndMissing | utils/dataLoader.py:183-189 | a missing end marker cuts the last character off |
| Cleaner.CleanIncomeDescription | utils/dataLoader.py:181-190 | the causale, emolumenti and cedole rules are tried in that order; none matching returns the input unchanged; a changed result is stripped; the result is a substring of the input |
| Cleaner.CausaleSpan | utils/dataLoader.py:182-183 | with `ordinante: ` before `causale` the income result is the stripped text between them |
| Cleaner.CausaleWithoutOrdinante | utils/dataLoader.py:182-183 | the causale rule fires without `ordinante: ` and then starts at index 10 |
| Cleaner.EmolumentiWithoutEnd | utils/dataLoader.py:184-185 | a payroll line without `accredito competenze` loses its last character |
| Cleaner.NormalizeDescription | src/utils/dataLoader.py:155-156 | the DESC column is `PayPal` or a substring of the raw description |
| Cleaner.PayPalIsNotIncome | src/utils/dataLoader.py:155-156 | the income pass leaves the `PayPal` label unchanged |
| Categorizer.FeeOverride | src/utils/dataLoader.py:184-189 | once a keyword has matched, a PayPal line with fee 5,99 is Education & Culture, else with fee 3,10 or 6,20 Transportation, else the keyword's category; without `paypal` nothing is overridden |
| Categorizer.MapExpensivesFirstMatch | src/utils/dataLoader.py:181-190 | the first keyword in table order whose lowered form occurs in the lowered description decides; no match gives `Other` |
| Categorizer.MapExpensivesRange | src/utils/dataLoader.py:181-190 | the answer is `Other`, a table category, or one of the two PayPal literals on a PayPal line |
| Categorizer.KeywordTableSemantics | src/utils/dataLoader.py:197 | each keyword maps to the last category listing it, keeps the position of its first appearance, and appears once |
| Categorizer.CategorizeOutflows | src/utils/dataLoader.py:200-202 | rows with IMPORTO < 0 get the category of their raw description; all other rows are unchanged |
| Categorizer.OverrideAll | src/utils/dataLoader.py:209-211 | after all assignments, in order, a row carries the category of the last pair naming its id, or is unchanged |
| Categorizer.ApplyOneOffsSemantics | src/utils/dataLoader.py:209-211 | a listed id ends with the last category listing it, whatever it had; an unlisted row is untouched |
| Categorizer.AddExpensiveCategoriesSemantics | src/utils/dataLoader.py:192-212 | one-off listing decides, else outflows get their keyword category, else the row keeps its own; only CATEGORIA changes |
| Categorizer.AddExpensiveCategoriesLegacy | utils/dataLoader.py:140-149 | the legacy categoriser touches outflows only and applies no overrides |
| Categorizer.LegacyAgreesWithoutOneOffs | utils/dataLoader.py:140-149 | both loaders categorise a row alike when no one-off lists its id |
| Importer.NormalizeDecimalCounts | utils/dataLoader.py:93-94 | decimal normalisation leaves no comma, as many points as the input had commas, and the length minus the input's points |
| Importer.RawAmount | src/utils/dataLoader.py:145-152 | a DARE string gives minus its normalised value; without DARE the amount is present exactly when AVERE is, and is its normalised value |
| Importer.SignedAmount | src/utils/dataLoader.py:152 | IMPORTO is minus DARE when DARE is present, even with AVERE, else AVERE |
| Importer.SignedAmountSign | src/utils/dataLoader.py:152 | a positive debit is an outflow; without a debit the sign is the credit's |
| Importer.DropDuplicateRows | src/utils/dataLoader.py:135 | exact duplicate lines are removed, every distinct line is kept, and the kept lines appear in order of their first occurrence |
| Importer.DropMissingReason | src/utils/dataLoader.py:138 | exactly the lines with a reason code remain |
| Importer.DropMissingReasonConcat | src/utils/dataLoader.py:138 | filtering distributes over concatenation, so the kept lines stay in their input order |
| Importer.MapAbiCodes | src/utils/dataLoader.py:169-178 | a missing code maps to the empty string, a present one to the table entry for its decimal string; any unmapped code fails the whole mapping, naming the first one |
| Importer.MissingCodeNamesIt | src/utils/dataLoader.py:175-177 | the failing key parses back to an unmapped code of the input |
| Importer.ImportRows | src/utils/dataLoader.py:121-162 | import fails exactly when a kept line's code is unmapped, with an error naming such a code; otherwise each kept line gives one transaction with its label |
| Importer.ImportTransactions | src/utils/dataLoader.py:121-167 | import fails exactly when a de-duplicated line with a reason code has an unmapped code, naming one; otherwise line i gives transaction i, normalised from it and categorised by the last one-off group listing its ID, else by keyword when it is an outflow, else left uncategorised |
| Importer.ImportTransactionsAsWritten | src/utils/dataLoader.py:121-211 | in the code's call order, with no CSV file the import is empty; with at least one it fails exactly when a code is unmapped or a one-off id is listed; a success equals the corrected import |
| Importer.OneOffsBreakImport | src/utils/dataLoader.py:165-211 | with at least one CSV file, all codes mapped and a one-off id listed, the import as written fails for want of the ID column while the corrected import succeeds |
| Importer.ImportTransactionsLegacy | utils/dataLoader.py:70-113 | the legacy import fails exactly when a kept line has an unmapped code, naming one; otherwise line i gives transaction i, normalised from it, with its keyword category when it is an outflow and none otherwise |
| Importer.ImportedRowsTraceBack | src/utils/dataLoader.py:121-167 | every imported transaction comes from a line with a reason code, with its dates, description, cleaned DESC, ID and signed amount |
| Ledger.KeyLeTransitive | src/utils/dataLoader.py:65 | the (VALUTA, DATA) lexicographic order is transitive |
| Ledger.Insert | src/utils/dataLoader.py:65 | insertion adds exactly one element |
| Ledger.InsertSorted | src/utils/dataLoader.py:65 | inserting into a descending sequence keeps it descending |
| Ledger.SortDesc | src/utils/dataLoader.py:65 | the sort is a permutation of its input |
| Ledger.SortDescSorted | src/utils/dataLoader.py:65 | the sort output is descending by its key |
| Ledger.Merge | src/utils/dataLoader.py:56 | the merge holds each (VALUTA, IMPORTO) pair once, loses none, and only has input rows |
| Ledger.MergePersistedWins | src/utils/dataLoader.py:56 | for every persisted pair the first persisted row with it is kept |
| Ledger.MergeIncomingOnlyIfNew | src/utils/dataLoader.py:56 | an imported row survives only when no persisted row has its pair |
| Ledger.MergeEmpty | src/utils/dataLoader.py:56-59 | the merge is empty only when both inputs are |
| Ledger.MergeIdempotent | src/utils/dataLoader.py:56 | importing the same lines twice adds nothing |
| Ledger.QuarterOf | src/utils/dataLoader.py:69 | the quarter is 1 to 4 and contains the month |
| Ledger.Book | src/utils/dataLoader.py:68-70 | MESE, TRIMESTRE and ANNO are the periods of VALUTA |
| Ledger.PeriodsAgree | src/utils/dataLoader.py:68-70 | rows in the same month share quarter and year, and rows with the same VALUTA share all three periods |
| Ledger.StampIdsKeys | src/utils/dataLoader.py:62 | stamping IDs keeps (VALUTA, IMPORTO), and equal descriptions get equal IDs |
| Ledger.CombinedEmpty | src/utils/dataLoader.py:46-59 | the rows to sort are empty exactly when the import is empty and there is no ledger or an empty one |
| Ledger.Assemble | src/utils/dataLoader.py:56-70 | an empty dataset fails with the empty-data error and only then; otherwise the output permutes the merged rows, with IDs and VALUTA periods |
| Ledger.AssembleSorted | src/utils/dataLoader.py:65 | the output is sorted newest first by (VALUTA, DATA) |
| Ledger.InsertUniquePairs | src/utils/dataLoader.py:56-65 | inserting a row with a new pair keeps the pairs unique |
| Ledger.SortDescUniquePairs | src/utils/dataLoader.py:56-65 | sorting keeps the pairs unique |
| Ledger.AssemblePairs | src/utils/dataLoader.py:46-65 | with a ledger the output holds exactly the pairs of ledger and import, each once |
| Ledger.ImportTransactionsPairs | src/utils/dataLoader.py:121-167 | the imported rows carry exactly the (VALUTA, IMPORTO) pairs of the kept lines |
| Ledger.LoadTransactions | src/utils/dataLoader.py:35-70 | the load fails with an unmapped-code error exactly when a kept line's code is unmapped; it fails with the empty-data error exactly when no line is kept and the ledger is absent or empty; in every other case it succeeds. The rows are then a permutation of the merged rows with IDs stamped (without a ledger, of the imported rows, one per kept line), sorted newest first by (VALUTA, DATA), carry VALUTA's periods and their description's ID, and, with a ledger, hold each pair of ledger and kept lines once |
| Ledger.AssembleLegacy | utils/dataLoader.py:35-52 | the legacy assembly fails on an empty dataset only; otherwise it permutes the ledger merged with the import (the import alone without a ledger) and gives VALUTA periods |
| Ledger.AssembleLegacySorted | utils/dataLoader.py:47 | the legacy output is sorted newest first by VALUTA |
| Ledger.AssembleLegacyPairs | utils/dataLoader.py:35-47 | with a ledger the legacy output holds exactly the pairs of ledger and import, each once |
| Ledger.ImportTransactionsLegacyPairs | utils/dataLoader.py:70-113 | the legacy import's rows carry exactly the (VALUTA, IMPORTO) pairs of the kept lines |
| Ledger.LoadTransactionsLegacy | utils/dataLoader.py:27-52 | the legacy load fails with an unmapped-code error exactly when a kept line's code is unmapped, and with the empty-data error exactly when no line is kept and the ledger is absent or empty; in every other case it succeeds. The rows are then a permutation of the ledger merged with the legacy import (without a ledger, of the imported rows, one per kept line), sorted newest first by VALUTA, carry VALUTA's periods, and, with a ledger, hold each pair of ledger and kept lines once |

## Left out

- File-system work (`initFolders`, `importCSVTransactions`, `importTransactionFile`, `listdir`, `read_csv`, `read_excel`, `shutil.move`, the folder erase and the Excel writing and styling): input and output; the model takes the file contents as sequences of records.
- The order hazard of the newer loader, which erases the data folder before writing the new workbook: file-system ordering, not modelled.
- `md5`: a parameter `hash`; the only property used is that equal descriptions give equal IDs.
- `astype('float')`: a parameter `toCents` on the normalised decimal string; floating-point values are not modelled, amounts are integer cents.
- `pd.to_datetime` with `dayfirst=True`: dates arrive parsed as `Date` records; the date parser is not modelled.
- The legacy loader applies the `.str` accessor to DARE and AVERE without the newer loader's emptiness guard; pandas raises when a whole column is empty, because it is then read as floats. Column dtypes are not modelled, so the model normalises both loaders' amounts alike.
- Transactions.RawRow: the description is a plain string, so an empty DESCRIZIONE OPERAZIONE cell (pandas' NaN) cannot be represented. On such a line both loaders raise `AttributeError` on `desc.lower()` (src/utils/dataLoader.py:215 via :155; utils/dataLoader.py:152 via :101), and the newer loader also raises on `desc.encode` when it computes a ledger row's ID (src/utils/dataLoader.py:50, :62). The model has no such abort.
- Importer.DropDuplicateRows: the placeholder CSV columns `Unnamed: 4` and `Unnamed: 7` take part in `drop_duplicates()` (src/utils/dataLoader.py:135, utils/dataLoader.py:84) and are only dropped later (src :159, utils :105). The model has no such fields and assumes them empty, so two lines that differ only there are merged by the model but kept by the program.
- PyStr.Lower: models Python's `lower()` as ASCII case folding, which keeps the length; a non-ASCII capital such as `À` or `È` is left unchanged, where Python lowers it.
- The tie order of pandas' `sort_values` (not stable by default): the model sorts deterministically and claims only sortedness and permutation.
- The call order of the newer import: `addExpensiveCategories` runs inside `importTransactions` (src/utils/dataLoader.py:165) before `loadTransactions` creates the `ID` column (:50, :62), so the one-off loop's `df['ID']` (:211) raises `KeyError` and aborts the import whenever at least one CSV file is imported and oneOffTransactions.json lists any id; with no CSV file the import returns an empty frame first (:133-134). `Importer.ImportTransactionsAsWritten` models that; the rest of the model uses `Importer.ImportTransactions`, which gives imported rows their ID first, so its import succeeds and the one-off overrides apply (see Findings).
- Importer.ImportTransactionsLegacy: the legacy `mapAbiCodes` prints the unmapped code and raises a bare `Exception()` that carries no code (utils/dataLoader.py:122-124); the model returns `MissingAbiCode(code)` for both loaders, so the error value names the code where the legacy exception does not.
- `loadBudget`, `saveDataframe` (broken and unused), the statistics, the graphs and the applications: reporting, plotting and entry points outside the loader's normalisation.
- The printed first and last VALUTA of the legacy loader: console output.
- Cleaner.PosRule: its contract states only that the result is stripped and a substring; the offsets are stated by `Cleaner.PosStart`.
- Categorizer.KeywordTableSemantics: the categories are the loaded dict's items; `json.load` keeps one entry per repeated category name in the file (its last list, at its first position), and the model does not reproduce that collapse, so for a file with a repeated name it would keep every list.
- Categorizer.ApplyOneOffsSemantics: the same holds for a repeated category name in oneOffTransactions.json.
- Importer.ImportTransactionsLegacy: the legacy rows carry an `id` field, the hash of the description, because both loaders share one record type; the legacy loader has no ID column, and nothing in the legacy path reads that field.

## Findings

| source | as written | input that shows it | evidently intended | confidence | as-written member | corrected member |
|---|---|---|---|---|---|---|
| src/utils/dataLoader.py:165-211 | `importTransactions` calls `addExpensiveCategories`, whose one-off loop reads `df['ID']` before `loadTransactions` creates that column | at least one CSV file imported, its reason codes all mapped, and oneOffTransactions.json listing at least one id: `KeyError: 'ID'` | the one-off categories apply to the imported rows by their ID | not executed | Importer.ImportTransactionsAsWritten, Importer.OneOffsBreakImport | Importer.ImportTransactions |

=== FILE: categorizer.dfy ===
/** `mapExpensives` and `addExpensiveCategories`: first-match keyword
    categorisation of outflows, with the PayPal fee overrides, followed (in
    the newer loader) by the one-off id -> category overrides. */
module Categorizer {
  import opened Wrappers
  import opened PyStr
  import opened OrderedDict
  import opened Transactions
  import Dedup

  const Other := "Other"
  const EducationCulture := "Education & Culture"
  const Transportation := "Transportation"

  // ---------------------------------------------------------------------
  // mapExpensives
  // ---------------------------------------------------------------------

  /** The keyword of `e` occurs in `desc`, both lowered. */
  ghost predicate Matches(e: Entry, desc: string)
  {
    Contains(Lower(desc), Lower(e.key))
  }

  /** `i` is the first table position whose keyword matches `desc`. */
  ghost predicate FirstMatchAt(table: seq<Entry>, desc: string, i: int)
  {
    0 <= i < |table| && Matches(table[i], desc)
    && forall j :: 0 <= j < i ==> !Matches(table[j], desc)
  }

  /** The category returned once a keyword with category `category` has
      matched: PayPal fees of 5,99 are education, fees of 3,10 or 6,20 are
      transport. `paypal` is looked up case-insensitively, the fee literal
      case-sensitively, and the 5,99 test comes first. */
  function FeeOverride(category: string, desc: string): (r: string)
    ensures !Contains(Lower(desc), "paypal") ==> r == category
    ensures Contains(Lower(desc), "paypal") && Contains(desc, "IMP. E 5,99")
            ==> r == EducationCulture
    ensures Contains(Lower(desc), "paypal") && !Contains(desc, "IMP. E 5,99")
            && (Contains(desc, "IMP. E 3,10") || Contains(desc, "IMP. E 6,20"))
            ==> r == Transportation
    ensures !Contains(desc, "IMP. E 5,99") && !Contains(desc, "IMP. E 3,10")
            && !Contains(desc, "IMP. E 6,20")
            ==> r == category
  {
    var paypal := In("paypal", Lower(desc));
    if paypal && In("IMP. E 5,99", desc) then EducationCulture
    else if paypal && (In("IMP. E 3,10", desc) || In("IMP. E 6,20", desc)) then Transportation
    else category
  }

  /** `mapExpensives(taxonomy, desc)`: scans the table in iteration order
      and answers for the first keyword found in the description. */
  function MapExpensives(table: seq<Entry>, desc: string): (r: string)
  {
    if |table| == 0 then Other
    else if In(Lower(table[0].key), Lower(desc)) then FeeOverride(table[0].value, desc)
    else MapExpensives(table[1..], desc)
  }

  /** First match wins: the answer is decided by the first keyword, in
      table order, whose lowered form occurs in the lowered description,
      and is `Other` when no keyword occurs. */
  lemma {:induction false} MapExpensivesFirstMatch(table: seq<Entry>, desc: string)
    ensures forall i :: FirstMatchAt(table, desc, i) ==>
              MapExpensives(table, desc) == FeeOverride(table[i].value, desc)
    ensures (forall i :: 0 <= i < |table| ==> !Matches(table[i], desc)) ==>
              MapExpensives(table, desc) == Other
  {
    if |table| > 0 {
      MapExpensivesFirstMatch(table[1..], desc);
      forall i | FirstMatchAt(table, desc, i)
        ensures MapExpensives(table, desc) == FeeOverride(table[i].value, desc)
      {
        if i > 0 {
          assert !Matches(table[0], desc);
          assert FirstMatchAt(table[1..], desc, i - 1) by {
            forall j | 0 <= j < i - 1
              ensures !Matches(table[1..][j], desc)
            {
              assert table[1..][j] == table[j + 1];
            }
          }
        }
      }
      if forall i :: 0 <= i < |table| ==> !Matches(table[i], desc) {
        assert !Matches(table[0], desc);
        forall i | 0 <= i < |table[1..]|
          ensures !Matches(table[1..][i], desc)
        {
          assert table[1..][i] == table[i + 1];
        }
      }
    }
  }

  /** The answer is one of the table's categories or one of the three
      literals `Other`, `Education & Culture`, `Transportation`; the
      literals other than `Other` need a PayPal line with a matching
      keyword. */
  lemma {:induction false} MapExpensivesRange(table: seq<Entry>, desc: string)
    ensures var r := MapExpensives(table, desc);
            r == Other
            || (Contains(Lower(desc), "paypal") && (r == EducationCulture || r == Transportation))
            || exists i :: 0 <= i < |table| && r == table[i].value
  {
    if |table| > 0 {
      MapExpensivesRange(table[1..], desc);
      var r := MapExpensives(table, desc);
      if !In(Lower(table[0].key), Lower(desc)) {
        if exists i :: 0 <= i < |table[1..]| && r == table[1..][i].value {
          var i :| 0 <= i < |table[1..]| && r == table[1..][i].value;
          assert r == table[i + 1].value;
        }
      } else {
        assert r == EducationCulture || r == Transportation || r == table[0].value;
      }
    }
  }

  // ---------------------------------------------------------------------
  // The keyword table
  // ---------------------------------------------------------------------

  /** The keyword -> category dict built by a comprehension over the
      category -> keywords lists: the pairs are assigned in visiting order. */
  function KeywordTable(categories: seq<Group>): seq<Entry>
  {
    FromPairs(Flatten(categories))
  }

  /** A keyword maps to the LAST category listing it, sits in the table at
      the position of its FIRST appearance, and appears once. */
  lemma KeywordTableSemantics(categories: seq<Group>, k: string)
    ensures Get(KeywordTable(categories), k) == LastGroupWith(categories, k)
    ensures Keys(KeywordTable(categories)) == Dedup.KeepFirst(Keys(Flatten(categories)), Id)
    ensures forall i, j :: 0 <= i < j < |KeywordTable(categories)| ==>
              KeywordTable(categories)[i].key != KeywordTable(categories)[j].key
  {
    FromPairsLastWins(Flatten(categories), k);
    FlattenLastGroup(categories, k);
    FromPairsOrder(Flatten(categories));
    FromPairsUniqueKeys(Flatten(categories));
  }

  // ---------------------------------------------------------------------
  // addExpensiveCategories
  // ---------------------------------------------------------------------

  /** The category an outflow receives: `mapExpensives` on its raw
      `DESCRIZIONE OPERAZIONE`, not on the cleaned `DESC`. */
  function KeywordCategory(table: seq<Entry>, t: Transaction): string
  {
    MapExpensives(table, t.description)
  }

  /** The masked assignment of CATEGORIA on IMPORTO < 0: outflows are categorised,
      every other row keeps its CATEGORIA, and no other column changes. */
  function CategorizeOutflows(rows: seq<Transaction>, table: seq<Entry>): (r: seq<Transaction>)
    ensures |r| == |rows|
    ensures forall i :: 0 <= i < |rows| && IsOutflow(rows[i]) ==>
              r[i] == rows[i].(category := Some(KeywordCategory(table, rows[i])))
    ensures forall i :: 0 <= i < |rows| && !IsOutflow(rows[i]) ==> r[i] == rows[i]
  {
    if |rows| == 0 then []
    else
      var t := rows[|rows| - 1];
      var c := if IsOutflow(t) then t.(category := Some(KeywordCategory(table, t))) else t;
      CategorizeOutflows(rows[..|rows| - 1], table) + [c]
  }

  /** The masked assignment of one (id, category) pair: every row with that
      ID gets the category. */
  function OverrideOne(rows: seq<Transaction>, e: Entry): (r: seq<Transaction>)
    ensures |r| == |rows|
    ensures forall i :: 0 <= i < |rows| ==>
              r[i] == if rows[i].id == e.key then rows[i].(category := Some(e.value)) else rows[i]
  {
    seq(|rows|, i requires 0 <= i < |rows| =>
      if rows[i].id == e.key then rows[i].(category := Some(e.value)) else rows[i])
  }

  /** The assignments of `OverrideOne`, one per pair, in order. After all
      of them a row carries the category of the LAST pair naming its id,
      and is untouched when no pair names it. */
  function OverrideAll(rows: seq<Transaction>, pairs: seq<Entry>): (r: seq<Transaction>)
    ensures |r| == |rows|
    ensures forall i :: 0 <= i < |rows| ==>
              r[i] == match LastValue(pairs, rows[i].id)
                      case Some(c) => rows[i].(category := Some(c))
                      case None => rows[i]
  {
    if |pairs| == 0 then rows
    else OverrideOne(OverrideAll(rows, pairs[..|pairs| - 1]), pairs[|pairs| - 1])
  }

  /** The one-off overrides of the newer loader: every id listed in
      `oneOffTransactions.json`, category by category, in file order. */
  function ApplyOneOffs(rows: seq<Transaction>, oneOffs: seq<Group>): (r: seq<Transaction>)
    ensures |r| == |rows|
  {
    OverrideAll(rows, Flatten(oneOffs))
  }

  /** A row whose id is listed ends with the category of the last group
      listing it, whatever it had before; an unlisted row is untouched. */
  lemma ApplyOneOffsSemantics(rows: seq<Transaction>, oneOffs: seq<Group>, i: int)
    requires 0 <= i < |rows|
    ensures LastGroupWith(oneOffs, rows[i].id).Some? ==>
              ApplyOneOffs(rows, oneOffs)[i]
              == rows[i].(category := LastGroupWith(oneOffs, rows[i].id))
    ensures LastGroupWith(oneOffs, rows[i].id).None? ==> ApplyOneOffs(rows, oneOffs)[i] == rows[i]
  {
    FlattenLastGroup(oneOffs, rows[i].id);
  }

  /** `addExpensiveCategories` of the newer loader. */
  function AddExpensiveCategories(rows: seq<Transaction>, tax: Taxonomies): (r: seq<Transaction>)
    ensures |r| == |rows|
  {
    ApplyOneOffs(CategorizeOutflows(rows, KeywordTable(tax.expenseCategories)), tax.oneOffs)
  }

  /** Row by row: a listed id decides the category; otherwise an outflow
      gets its keyword category and any other row keeps its own. Nothing
      but CATEGORIA changes. */
  lemma AddExpensiveCategoriesSemantics(rows: seq<Transaction>, tax: Taxonomies, i: int)
    requires 0 <= i < |rows|
    ensures var r := AddExpensiveCategories(rows, tax);
            r[i] == rows[i].(category := r[i].category)
    ensures var r := AddExpensiveCategories(rows, tax);
            var oneOff := LastGroupWith(tax.oneOffs, rows[i].id);
            r[i].category ==
              if oneOff.Some? then oneOff
              else if IsOutflow(rows[i])
              then Some(MapExpensives(KeywordTable(tax.expenseCategories), rows[i].description))
              else rows[i].category
  {
    var c := CategorizeOutflows(rows, KeywordTable(tax.expenseCategories));
    ApplyOneOffsSemantics(c, tax.oneOffs, i);
    assert c[i].id == rows[i].id;
  }

  /** `addExpensiveCategories` of the legacy loader: outflows only, no
      one-off overrides. */
  function AddExpensiveCategoriesLegacy(rows: seq<Transaction>, tax: Taxonomies): (r: seq<Transaction>)
    ensures |r| == |rows|
    ensures forall i :: 0 <= i < |rows| && IsOutflow(rows[i]) ==>
              r[i] == rows[i].(category := Some(MapExpensives(KeywordTable(tax.expenseCategories), rows[i].description)))
    ensures forall i :: 0 <= i < |rows| && !IsOutflow(rows[i]) ==> r[i] == rows[i]
  {
    CategorizeOutflows(rows, KeywordTable(tax.expenseCategories))
  }

  /** The two loaders agree on every row whose id no one-off group lists. */
  lemma LegacyAgreesWithoutOneOffs(rows: seq<Transaction>, tax: Taxonomies, i: int)
    requires 0 <= i < |rows|
    requires LastGroupWith(tax.oneOffs, rows[i].id).None?
    ensures AddExpensiveCategories(rows, tax)[i] == AddExpensiveCategoriesLegacy(rows, tax)[i]
  {
    var c := CategorizeOutflows(rows, KeywordTable(tax.expenseCategories));
    ApplyOneOffsSemantics(c, tax.oneOffs, i);
  }
}

=== FILE: cleaner.dfy ===
/** The two description cleaners of the loader: `cleanDescription`, which
    pulls the counterparty out of a raw bank description with the first of
    four marker rules that applies, and `cleanIncomeDescription`, a second
    pass over the result for income descriptions. Both are written on top of
    Python's `find`, slicing and `strip`, and keep the raw index arithmetic
    on `find`'s -1 answer: a missing inner marker yields a shifted slice, not
    a fall-through to the next rule. */
module Cleaner {
  import opened PyStr

  // The markers that select a rule, as the code spells them (lower case).
  const TransferMarker := "vostra disposizione a favore"
  const PosMarker := "pagamento tramite pos"
  const CreditMarker := "pagamenti diversi cred. "
  const PolicyTaxMarker := "imposte e tasse polizza"

  // The markers that select an income rule.
  const CausaleMarker := "causale"
  const EmolumentiMarker := "emolumenti"
  const CedoleMarker := "cedole"

  /** The slice from `skip` characters past the first `from` to the first
      `upTo`, both found in the lowered description, then stripped: the
      shape shared by four of the rules. */
  function Between(desc: string, from: string, skip: int, upTo: string): (r: string)
    ensures NoEdgeIn(r, StripChars)
    ensures Contains(desc, r)
  {
    var low := Lower(desc);
    var slice := Slice(desc, Find(low, from) + skip, Find(low, upTo));
    var r := Strip(slice, StripChars);
    ContainsTransitive(desc, slice, r);
    r
  }

  /** With both markers present, in order, the result is the stripped text
      from `skip` characters past the first `from` up to the first `upTo`. */
  lemma BetweenFound(desc: string, from: string, skip: int, upTo: string, a: int, b: int)
    requires FirstAt(Lower(desc), from, a) && FirstAt(Lower(desc), upTo, b)
    requires 0 <= a + skip <= b
    ensures Between(desc, from, skip, upTo) == Strip(desc[a + skip..b], StripChars)
  {
    FindIsFirst(Lower(desc), from, a);
    FindIsFirst(Lower(desc), upTo, b);
  }

  /** A missing `from` does not disable the rule: `find` answers -1, so the
      text starts at index `skip - 1`. */
  lemma BetweenStartMissing(desc: string, from: string, skip: int, upTo: string, b: int)
    requires !Contains(Lower(desc), from) && FirstAt(Lower(desc), upTo, b)
    requires 0 <= skip - 1 <= b
    ensures Between(desc, from, skip, upTo) == Strip(desc[skip - 1..b], StripChars)
  {
    FindIsFirst(Lower(desc), upTo, b);
  }

  /** A missing `upTo` does not disable the rule either: the end bound -1
      cuts the last character off the description. */
  lemma BetweenEndMissing(desc: string, from: string, skip: int, upTo: string, a: int)
    requires FirstAt(Lower(desc), from, a) && !Contains(Lower(desc), upTo)
    requires 0 <= a + skip < |desc|
    ensures Between(desc, from, skip, upTo) == Strip(desc[a + skip..|desc| - 1], StripChars)
  {
    FindIsFirst(Lower(desc), from, a);
    assert Find(Lower(desc), upTo) == -1;
    SliceToMinusOne(desc, a + skip);
  }

  /** Stripping ` -.` keeps a leading marker whose first and last
      characters are not themselves strip characters. */
  lemma StripKeepsMarker(t: string, m: string)
    requires 0 < |m| <= |t| && Lower(t[..|m|]) == m
    requires m[0] !in StripChars && m[|m| - 1] !in StripChars
    ensures |Strip(t, StripChars)| >= |m| && Lower(Strip(t, StripChars))[..|m|] == m
  {
    LowerKeepsStripChars(t[0]);
    LowerKeepsStripChars(t[|m| - 1]);
    assert LowerChar(t[0]) == Lower(t[..|m|])[0];
    assert LowerChar(t[|m| - 1]) == Lower(t[..|m|])[|m| - 1];
    StripKeepsPrefix(t, StripChars, |m|);
    var r := Strip(t, StripChars);
    LowerSlice(r, 0, |m|);
    assert r[..|m|] == t[..|m|];
    assert r[0..|m|] == r[..|m|];
  }

  // ---------------------------------------------------------------------
  // cleanDescription
  // ---------------------------------------------------------------------

  /** The part of a received transfer that holds the payer: from the
      `a fav: ` marker to the `id.msg` marker, or to the end when `id.msg`
      does not follow it. */
  function TransferSlice(desc: string): (slice: string)
    ensures Contains(desc, slice)
  {
    var low := Lower(desc);
    var start := Find(low, "a fav: ");
    var end := Find(low, "id.msg");
    Slice(desc, start, if end > start then end else |desc|)
  }

  /** Received transfer: the transfer slice cut at its first hyphen, then
      stripped. */
  function TransferRule(desc: string): (r: string)
    ensures '-' !in r
    ensures NoEdgeIn(r, StripChars)
    ensures Contains(desc, r)
  {
    var slice := TransferSlice(desc);
    var head := SplitHead(slice, '-');
    var r := Strip(head, StripChars);
    SliceContained(slice, 0, |head|);
    ContainsTransitive(slice, head, r);
    ContainsTransitive(desc, slice, r);
    ContainsChars(head, r);
    r
  }

  /** The result of the transfer rule lies inside the transfer slice. */
  lemma TransferRuleInSlice(desc: string)
    ensures Contains(TransferSlice(desc), TransferRule(desc))
  {
    var slice := TransferSlice(desc);
    var head := SplitHead(slice, '-');
    SliceContained(slice, 0, |head|);
    assert slice[0..|head|] == head;
    ContainsTransitive(slice, head, TransferRule(desc));
  }

  /** The first occurrence of `pat` in `s` exists and is not at index 0. */
  ghost predicate FirstPastStart(s: string, pat: string)
  {
    exists i :: FirstAt(s, pat, i) && i > 0
  }

  lemma FirstPastStartFind(s: string, pat: string)
    ensures FirstPastStart(s, pat) <==> Find(s, pat) > 0
    ensures forall i :: FirstAt(s, pat, i) ==> Find(s, pat) == i
  {
    forall i | FirstAt(s, pat, i)
      ensures Find(s, pat) == i
    {
      FindIsFirst(s, pat, i);
    }
  }

  /** Offset of the merchant name in a card payment: past `presso:`, else
      past `.00 `, else twelve characters past the first colon, else 0. A
      marker whose first occurrence is at index 0 counts as absent because
      the code tests `> 0`. */
  function PosStart(low: string): (sp: int)
    ensures sp >= 0
    ensures forall i :: FirstAt(low, "presso:", i) && i > 0 ==> sp == i + 7
    ensures forall i :: !FirstPastStart(low, "presso:") && FirstAt(low, ".00 ", i) && i > 0
              ==> sp == i + 4
    ensures forall i :: !FirstPastStart(low, "presso:") && !FirstPastStart(low, ".00 ")
              && FirstAt(low, ":", i) && i > 0
              ==> sp == i + 12
    ensures !FirstPastStart(low, "presso:") && !FirstPastStart(low, ".00 ")
            && !FirstPastStart(low, ":")
            ==> sp == 0
  {
    FirstPastStartFind(low, "presso:");
    FirstPastStartFind(low, ".00 ");
    FirstPastStartFind(low, ":");
    var p1 := Find(low, "presso:");
    var p2 := Find(low, ".00 ");
    var p3 := Find(low, ":");
    if p1 > 0 then p1 + 7
    else if p2 > 0 then p2 + 4
    else if p3 > 0 then p3 + 12
    else 0
  }

  /** Card payment: the stripped tail of the description from `PosStart`. */
  function PosRule(desc: string): (r: string)
    ensures NoEdgeIn(r, StripChars)
    ensures Contains(desc, r)
  {
    var tail := SliceFrom(desc, PosStart(Lower(desc)));
    var r := Strip(tail, StripChars);
    ContainsTransitive(desc, tail, r);
    r
  }

  /** When `presso:` first occurs past the start, the merchant is the
      stripped text after it. */
  lemma PosRuleAfterPresso(desc: string, i: int)
    requires FirstAt(Lower(desc), "presso:", i) && i > 0
    ensures PosRule(desc) == Strip(desc[i + 7..], StripChars)
  {
  }

  /** Received transfer with both markers, `id.msg` after `a fav: `: the
      result is the text between them, cut at its first hyphen and
      stripped. */
  lemma TransferBetweenMarkers(desc: string, p: int, e: int)
    requires FirstAt(Lower(desc), "a fav: ", p) && FirstAt(Lower(desc), "id.msg", e)
    requires e > p
    ensures TransferRule(desc) == Strip(SplitHead(desc[p..e], '-'), StripChars)
    ensures Contains(desc[p..e], TransferRule(desc))
  {
    FindIsFirst(Lower(desc), "a fav: ", p);
    FindIsFirst(Lower(desc), "id.msg", e);
    assert TransferSlice(desc) == desc[p..e];
    TransferRuleInSlice(desc);
  }

  /** Received transfer whose `id.msg` is missing or comes before `a fav: `:
      the result is the text from the marker to the end, cut at its first
      hyphen and stripped. */
  lemma TransferToEnd(desc: string, p: int)
    requires FirstAt(Lower(desc), "a fav: ", p)
    requires forall e :: FirstAt(Lower(desc), "id.msg", e) ==> e <= p
    ensures TransferRule(desc) == Strip(SplitHead(desc[p..], '-'), StripChars)
    ensures Contains(desc[p..], TransferRule(desc))
  {
    FindIsFirst(Lower(desc), "a fav: ", p);
    var end := Find(Lower(desc), "id.msg");
    assert end != -1 ==> FirstAt(Lower(desc), "id.msg", end);
    assert TransferSlice(desc) == desc[p..];
    TransferRuleInSlice(desc);
  }

  /** `id.msg` starts with `i`, which `a fav: ` does not contain, so an
      `id.msg` after the marker starts past its end. */
  lemma MessageIdAfterMarker(low: string, p: int, e: int)
    requires OccursAt(low, "a fav: ", p) && OccursAt(low, "id.msg", e) && e > p
    ensures e >= p + 7
  {
    assert low[e] == low[e..e + 6][0];
    assert forall k :: p <= k < p + 7 ==> low[k] == low[p..p + 7][k - p];
  }

  /** The transfer slice starts with the `a fav: ` marker itself. */
  lemma TransferSliceAtMarker(desc: string)
    requires Contains(Lower(desc), "a fav: ")
    ensures |TransferSlice(desc)| >= 7
    ensures Lower(TransferSlice(desc)[..7]) == "a fav: "
  {
    var low := Lower(desc);
    var p := Find(low, "a fav: ");
    var end := Find(low, "id.msg");
    if end > p {
      MessageIdAfterMarker(low, p, end);
    }
    var stop := if end > p then end else |desc|;
    assert TransferSlice(desc) == desc[p..stop];
    LowerSlice(desc, p, p + 7);
    assert desc[p..stop][..7] == desc[p..p + 7];
  }

  /** Cutting at the first hyphen keeps a leading marker without hyphens. */
  lemma SplitHeadKeepsMarker(t: string, m: string)
    requires |m| <= |t| && Lower(t[..|m|]) == m && '-' !in m
    ensures |SplitHead(t, '-')| >= |m| && SplitHead(t, '-')[..|m|] == t[..|m|]
  {
  }

  /** The `a fav:` marker survives at the head of a received transfer: the
      slice starts at the marker itself, it has no hyphen, and its ends are
      not stripped. */
  lemma TransferKeepsMarker(desc: string)
    requires Contains(Lower(desc), "a fav: ")
    ensures |TransferRule(desc)| >= 6 && Lower(TransferRule(desc))[..6] == "a fav:"
  {
    var slice := TransferSlice(desc);
    TransferSliceAtMarker(desc);
    SplitHeadKeepsMarker(slice, "a fav: ");
    var head := SplitHead(slice, '-');
    LowerSlice(head, 0, 7);
    LowerSlice(head, 0, 6);
    assert Lower(head)[0..6] == Lower(head)[0..7][..6];
    StripKeepsMarker(head, "a fav:");
  }

  /** Without `a fav: ` the transfer rule still fires on its outer marker:
      `find` answers -1, so the slice is at most the last character, and
      nothing at all when `id.msg` is present. */
  lemma TransferWithoutInnerMarker(desc: string)
    requires !Contains(Lower(desc), "a fav: ")
    ensures |TransferRule(desc)| <= 1
    ensures |TransferRule(desc)| == 1 ==> TransferRule(desc) == [desc[|desc| - 1]]
    ensures Contains(Lower(desc), "id.msg") ==> TransferRule(desc) == []
  {
    var end := Find(Lower(desc), "id.msg");
    var slice := TransferSlice(desc);
    assert end > -1 || |desc| == 0 ==> slice == [];
    assert end == -1 && |desc| > 0 ==> slice == [desc[|desc| - 1]];
    TransferRuleInSlice(desc);
    var i :| OccursAt(slice, TransferRule(desc), i);
    assert |TransferRule(desc)| == 1 ==> TransferRule(desc) == slice[i..i + 1] == slice;
  }

  /** Recurring credit: the text between `cred. ` and `id.mandato`, stripped,
      collapsed to `PayPal` when it mentions PayPal in any case. */
  function CreditRule(desc: string): (r: string)
    ensures r == "PayPal" || !Contains(Lower(r), "paypal")
    ensures r == "PayPal" || (NoEdgeIn(r, StripChars) && Contains(desc, r))
  {
    var minimal := Between(desc, "cred. ", 6, "id.mandato");
    if In("paypal", Lower(minimal)) then "PayPal" else minimal
  }

  /** Insurance stamp duty: the stripped tail from `periodo bollo`. */
  function StampDutyRule(desc: string): (r: string)
    ensures NoEdgeIn(r, StripChars)
    ensures Contains(desc, r)
  {
    var tail := SliceFrom(desc, Find(Lower(desc), "periodo bollo"));
    var r := Strip(tail, StripChars);
    ContainsTransitive(desc, tail, r);
    r
  }

  /** Stamp duty keeps its `periodo bollo` marker at the head of the result. */
  lemma StampDutyKeepsMarker(desc: string)
    requires Contains(Lower(desc), "periodo bollo")
    ensures |StampDutyRule(desc)| >= 13 && Lower(StampDutyRule(desc))[..13] == "periodo bollo"
  {
    var low := Lower(desc);
    var p := Find(low, "periodo bollo");
    var tail := desc[p..];
    assert SliceFrom(desc, p) == tail;
    LowerSlice(desc, p, p + 13);
    assert tail[..13] == desc[p..p + 13];
    StripKeepsMarker(tail, "periodo bollo");
  }

  /** Stamp duty with its marker at `p`, the first occurrence: the result
      is the tail from `p`, stripped. */
  lemma StampDutyFromMarker(desc: string, p: int)
    requires FirstAt(Lower(desc), "periodo bollo", p)
    ensures StampDutyRule(desc) == Strip(desc[p..], StripChars)
  {
    FindIsFirst(Lower(desc), "periodo bollo", p);
  }

  /** Without `periodo bollo` the stamp-duty rule still fires on its outer
      marker and keeps at most the last character. */
  lemma StampDutyWithoutInnerMarker(desc: string)
    requires !Contains(Lower(desc), "periodo bollo")
    ensures |StampDutyRule(desc)| <= 1
    ensures |StampDutyRule(desc)| == 1 ==> StampDutyRule(desc) == [desc[|desc| - 1]]
  {
    assert Find(Lower(desc), "periodo bollo") == -1;
    var tail := SliceFrom(desc, -1);
    if |desc| > 0 {
      SliceFromMinusOne(desc);
    }
    ContainsLength(tail, Strip(tail, StripChars));
  }

  /** `cleanDescription`: the first rule whose marker occurs in the lowered
      description decides, in the order transfer, card payment, recurring
      credit, stamp duty; with none of the four markers the description is
      returned as it is. */
  function CleanDescription(desc: string): (r: string)
    ensures Contains(Lower(desc), TransferMarker) ==> r == TransferRule(desc)
    ensures !Contains(Lower(desc), TransferMarker) && Contains(Lower(desc), PosMarker)
            ==> r == PosRule(desc)
    ensures !Contains(Lower(desc), TransferMarker) && !Contains(Lower(desc), PosMarker)
            && Contains(Lower(desc), CreditMarker)
            ==> r == CreditRule(desc)
    ensures !Contains(Lower(desc), TransferMarker) && !Contains(Lower(desc), PosMarker)
            && !Contains(Lower(desc), CreditMarker) && Contains(Lower(desc), PolicyTaxMarker)
            ==> r == StampDutyRule(desc)
    ensures !Contains(Lower(desc), TransferMarker) && !Contains(Lower(desc), PosMarker)
            && !Contains(Lower(desc), CreditMarker) && !Contains(Lower(desc), PolicyTaxMarker)
            ==> r == desc
  {
    var low := Lower(desc);
    if In(TransferMarker, low) then TransferRule(desc)
    else if In(PosMarker, low) then PosRule(desc)
    else if In(CreditMarker, low) then CreditRule(desc)
    else if In(PolicyTaxMarker, low) then StampDutyRule(desc)
    else desc
  }

  // ---------------------------------------------------------------------
  // cleanIncomeDescription
  // ---------------------------------------------------------------------

  /** Ordering party: from eleven characters past `ordinante: ` up to
      `causale`, stripped. */
  function CausaleRule(desc: string): string
  {
    Between(desc, "ordinante: ", 11, "causale")
  }

  /** Payroll: from fifteen characters past `per emolumenti` up to
      `accredito competenze`, stripped. */
  function EmolumentiRule(desc: string): string
  {
    Between(desc, "per emolumenti", 15, "accredito competenze")
  }

  /** Bond coupons: from seven characters past `cedole ` up to `quantit`,
      stripped. */
  function CedoleRule(desc: string): string
  {
    Between(desc, "cedole ", 7, "quantit")
  }

  /** An ordering-party line: the text between `ordinante: ` and `causale`. */
  lemma CausaleSpan(desc: string, o: int, c: int)
    requires FirstAt(Lower(desc), "ordinante: ", o) && FirstAt(Lower(desc), "causale", c)
    requires o + 11 <= c
    ensures CleanIncomeDescription(desc) == Strip(desc[o + 11..c], StripChars)
  {
    BetweenFound(desc, "ordinante: ", 11, "causale", o, c);
  }

  /** The guard only looks for `causale`: without `ordinante: ` the rule
      still fires, and the slice starts at index 10 (-1 + 11). */
  lemma CausaleWithoutOrdinante(desc: string, c: int)
    requires !Contains(Lower(desc), "ordinante: ") && FirstAt(Lower(desc), "causale", c)
    requires c >= 10
    ensures CleanIncomeDescription(desc) == Strip(desc[10..c], StripChars)
  {
    BetweenStartMissing(desc, "ordinante: ", 11, "causale", c);
  }

  /** A payroll line without `accredito competenze` loses its last character. */
  lemma EmolumentiWithoutEnd(desc: string, e: int)
    requires !Contains(Lower(desc), CausaleMarker)
    requires FirstAt(Lower(desc), "per emolumenti", e)
    requires !Contains(Lower(desc), "accredito competenze")
    requires e + 15 < |desc|
    ensures CleanIncomeDescription(desc) == Strip(desc[e + 15..|desc| - 1], StripChars)
  {
    var low := Lower(desc);
    assert low[e..e + 14] == "per emolumenti";
    assert low[e + 4..e + 14] == low[e..e + 14][4..14];
    assert OccursAt(low, EmolumentiMarker, e + 4);
    BetweenEndMissing(desc, "per emolumenti", 15, "accredito competenze", e);
  }

  /** Python's `a and b` on a string `a` and a boolean `b`: a non-empty `a`
      is truthy, so the value is `b`. */
  function PyAnd(a: string, b: bool): bool
  {
    |a| > 0 && b
  }

  /** `cleanIncomeDescription`. The first guard is the Python `and` of the
      bare literal `ordinante` with the membership test for `causale`; the
      literal is truthy, so the guard depends on `causale` alone. The rules are tried in the order causale,
      emolumenti, cedole; with none of the three markers the description is
      returned as it is, otherwise the result is stripped. */
  function CleanIncomeDescription(desc: string): (r: string)
    ensures Contains(Lower(desc), CausaleMarker) ==> r == CausaleRule(desc)
    ensures !Contains(Lower(desc), CausaleMarker) && Contains(Lower(desc), EmolumentiMarker)
            ==> r == EmolumentiRule(desc)
    ensures !Contains(Lower(desc), CausaleMarker) && !Contains(Lower(desc), EmolumentiMarker)
            && Contains(Lower(desc), CedoleMarker)
            ==> r == CedoleRule(desc)
    ensures !Contains(Lower(desc), CausaleMarker) && !Contains(Lower(desc), EmolumentiMarker)
            && !Contains(Lower(desc), CedoleMarker)
            ==> r == desc
    ensures r != desc ==> NoEdgeIn(r, StripChars)
    ensures Contains(desc, r)
  {
    var low := Lower(desc);
    if PyAnd("ordinante", In(CausaleMarker, low)) then CausaleRule(desc)
    else if In(EmolumentiMarker, low) then EmolumentiRule(desc)
    else if In(CedoleMarker, low) then CedoleRule(desc)
    else
      SliceContained(desc, 0, |desc|);
      assert desc[0..|desc|] == desc;
      desc
  }

  /** The `DESC` column: `cleanIncomeDescription(cleanDescription(d))`. */
  function NormalizeDescription(desc: string): (r: string)
    ensures r == "PayPal" || Contains(desc, r)
  {
    var c := CleanDescription(desc);
    var r := CleanIncomeDescription(c);
    CleanDescriptionContained(desc);
    if c == "PayPal" then
      PayPalIsNotIncome();
      r
    else
      ContainsTransitive(desc, c, r);
      r
  }

  /** Apart from the `PayPal` label, `cleanDescription` only ever returns a
      piece of its input. */
  lemma CleanDescriptionContained(desc: string)
    ensures CleanDescription(desc) == "PayPal" || Contains(desc, CleanDescription(desc))
  {
    SliceContained(desc, 0, |desc|);
    assert desc[0..|desc|] == desc;
  }

  /** The literal `PayPal` mentions none of the income markers, so the
      second pass leaves it alone. */
  lemma PayPalIsNotIncome()
    ensures CleanIncomeDescription("PayPal") == "PayPal"
  {
    var low := Lower("PayPal");
    assert low == "paypal";
    assert !OccursAt(low, CedoleMarker, 0) by { assert low[0] != CedoleMarker[0]; }
    assert !Contains(low, CedoleMarker);
  }
}

=== FILE: dedup.dfy ===
/** Keep-first de-duplication by a key, the behaviour of pandas'
    `drop_duplicates(subset=..., keep='first')`, together with the facts the
    ledger and the keyword table rely on. */
module Dedup {

  /** Some element of `xs` has key `k`. */
  predicate HasKey<T, K(==,!new)>(xs: seq<T>, key: T -> K, k: K)
  {
    exists i :: 0 <= i < |xs| && key(xs[i]) == k
  }

  /** No two elements of `xs` share a key. */
  predicate UniqueKeys<T, K(==,!new)>(xs: seq<T>, key: T -> K)
  {
    forall i, j :: 0 <= i < j < |xs| ==> key(xs[i]) != key(xs[j])
  }

  /** Index of the first element of `xs` whose key is `k`. */
  function FirstIndex<T, K(==,!new)>(xs: seq<T>, key: T -> K, k: K): (i: nat)
    requires HasKey(xs, key, k)
    ensures i < |xs| && key(xs[i]) == k
    ensures forall j :: 0 <= j < i ==> key(xs[j]) != k
  {
    if key(xs[0]) == k then 0
    else
      assert HasKey(xs[1..], key, k) by {
        var i :| 0 <= i < |xs| && key(xs[i]) == k;
        assert key(xs[1..][i - 1]) == k;
      }
      FirstIndex(xs[1..], key, k) + 1
  }

  /** Scans `xs` from the front and keeps an element only when no earlier
      element had its key. */
  function KeepFirst<T(==), K(==,!new)>(xs: seq<T>, key: T -> K): (r: seq<T>)
    ensures |r| <= |xs|
    ensures UniqueKeys(r, key)
    ensures forall i :: 0 <= i < |r| ==> r[i] in xs
    ensures forall k :: HasKey(r, key, k) <==> HasKey(xs, key, k)
  {
    if |xs| == 0 then []
    else
      var p, x := xs[..|xs| - 1], xs[|xs| - 1];
      assert xs == p + [x];
      var d := KeepFirst(p, key);
      assert forall k :: HasKey(xs, key, k) <==> HasKey(p, key, k) || key(x) == k by {
        forall k | HasKey(xs, key, k)
          ensures HasKey(p, key, k) || key(x) == k
        {
          var i :| 0 <= i < |xs| && key(xs[i]) == k;
          if i < |p| { assert key(p[i]) == k; }
        }
        forall k | HasKey(p, key, k)
          ensures HasKey(xs, key, k)
        {
          var i :| 0 <= i < |p| && key(p[i]) == k;
          assert key(xs[i]) == k;
        }
        assert key(xs[|p|]) == key(x);
      }
      if HasKey(d, key, key(x)) then d
      else
        var r := d + [x];
        assert forall k :: HasKey(r, key, k) <==> HasKey(d, key, k) || key(x) == k by {
          forall k | HasKey(r, key, k)
            ensures HasKey(d, key, k) || key(x) == k
          {
            var i :| 0 <= i < |r| && key(r[i]) == k;
            if i < |d| { assert key(d[i]) == k; }
          }
          forall k | HasKey(d, key, k)
            ensures HasKey(r, key, k)
          {
            var i :| 0 <= i < |d| && key(d[i]) == k;
            assert key(r[i]) == k;
          }
          assert key(r[|d|]) == key(x);
        }
        r
  }

  /** The first occurrence of a key does not move when elements are
      appended after it. */
  lemma {:induction false} FirstIndexConcat<T, K(!new)>(xs: seq<T>, ys: seq<T>, key: T -> K, k: K)
    requires HasKey(xs, key, k)
    ensures HasKey(xs + ys, key, k)
    ensures FirstIndex(xs + ys, key, k) == FirstIndex(xs, key, k)
  {
    var i := FirstIndex(xs, key, k);
    assert key((xs + ys)[i]) == k;
    var j := FirstIndex(xs + ys, key, k);
    assert j <= i;
    assert key(xs[j]) == k;
  }

  /** A key first seen in the appended part is first seen at its index there. */
  lemma FirstIndexFresh<T, K(!new)>(xs: seq<T>, x: T, key: T -> K)
    requires !HasKey(xs, key, key(x))
    ensures HasKey(xs + [x], key, key(x))
    ensures FirstIndex(xs + [x], key, key(x)) == |xs|
  {
    assert key((xs + [x])[|xs|]) == key(x);
  }

  /** Every element of `r` is the first element of `xs` with its key, and
      `r` lists them in the order in which their keys first occur in `xs`. */
  ghost predicate FirstsInOrder<T, K(!new)>(xs: seq<T>, key: T -> K, r: seq<T>)
  {
    && (forall i :: 0 <= i < |r| ==>
          HasKey(xs, key, key(r[i])) && r[i] == xs[FirstIndex(xs, key, key(r[i]))])
    && (forall i, j :: 0 <= i < j < |r| ==>
          HasKey(xs, key, key(r[i])) && HasKey(xs, key, key(r[j])) &&
          FirstIndex(xs, key, key(r[i])) < FirstIndex(xs, key, key(r[j])))
  }

  /** Appending to `xs` keeps the first occurrences `r` already lists. */
  lemma FirstsInOrderExtend<T, K(!new)>(xs: seq<T>, x: T, key: T -> K, r: seq<T>)
    requires FirstsInOrder(xs, key, r)
    ensures FirstsInOrder(xs + [x], key, r)
    ensures forall i :: 0 <= i < |r| ==> FirstIndex(xs + [x], key, key(r[i])) < |xs|
  {
    forall i | 0 <= i < |r|
      ensures HasKey(xs + [x], key, key(r[i]))
      ensures FirstIndex(xs + [x], key, key(r[i])) == FirstIndex(xs, key, key(r[i]))
    {
      FirstIndexConcat(xs, [x], key, key(r[i]));
    }
    forall i | 0 <= i < |r|
      ensures r[i] == (xs + [x])[FirstIndex(xs + [x], key, key(r[i]))]
    {
      assert (xs + [x])[FirstIndex(xs, key, key(r[i]))] == xs[FirstIndex(xs, key, key(r[i]))];
    }
  }

  /** The first element with a fresh key extends the first occurrences. */
  lemma FirstsInOrderAppend<T, K(!new)>(xs: seq<T>, x: T, key: T -> K, r: seq<T>)
    requires FirstsInOrder(xs + [x], key, r) && !HasKey(xs, key, key(x))
    requires forall i :: 0 <= i < |r| ==> FirstIndex(xs + [x], key, key(r[i])) < |xs|
    ensures FirstsInOrder(xs + [x], key, r + [x])
  {
    FirstIndexFresh(xs, x, key);
    var s := r + [x];
    forall i | 0 <= i < |s|
      ensures HasKey(xs + [x], key, key(s[i])) && s[i] == (xs + [x])[FirstIndex(xs + [x], key, key(s[i]))]
    {
      if i < |r| { assert s[i] == r[i]; } else { assert s[i] == x; }
    }
    forall i, j | 0 <= i < j < |s|
      ensures FirstIndex(xs + [x], key, key(s[i])) < FirstIndex(xs + [x], key, key(s[j]))
    {
      assert s[i] == r[i];
      if j < |r| { assert s[j] == r[j]; } else { assert s[j] == x; }
    }
  }

  /** `KeepFirst` keeps, for every key, the FIRST element carrying it, and
      lists the kept elements in the order in which their keys first occur.
      Together with the contract of `KeepFirst` (unique keys, no key lost)
      this determines the result completely. */
  lemma {:induction false} KeepFirstIsFirst<T, K(!new)>(xs: seq<T>, key: T -> K)
    ensures FirstsInOrder(xs, key, KeepFirst(xs, key))
  {
    if |xs| > 0 {
      var p, x := xs[..|xs| - 1], xs[|xs| - 1];
      assert xs == p + [x];
      var d := KeepFirst(p, key);
      KeepFirstIsFirst(p, key);
      FirstsInOrderExtend(p, x, key, d);
      if !HasKey(d, key, key(x)) {
        FirstsInOrderAppend(p, x, key, d);
      }
    }
  }

  /** Two kept elements appear in the order of their keys' first
      occurrences. */
  lemma KeepFirstOrder<T, K(!new)>(xs: seq<T>, key: T -> K, i: int, j: int)
    requires 0 <= i < j < |KeepFirst(xs, key)|
    ensures HasKey(xs, key, key(KeepFirst(xs, key)[i])) && HasKey(xs, key, key(KeepFirst(xs, key)[j]))
    ensures FirstIndex(xs, key, key(KeepFirst(xs, key)[i])) < FirstIndex(xs, key, key(KeepFirst(xs, key)[j]))
  {
    KeepFirstIsFirst(xs, key);
  }

  /** Every kept element is the first element of `xs` with its key. */
  lemma KeepFirstMember<T, K(!new)>(xs: seq<T>, key: T -> K, t: T)
    requires t in KeepFirst(xs, key)
    ensures HasKey(xs, key, key(t)) && t == xs[FirstIndex(xs, key, key(t))]
  {
    var r := KeepFirst(xs, key);
    var j :| 0 <= j < |r| && r[j] == t;
    KeepFirstIsFirst(xs, key);
    assert HasKey(xs, key, key(r[j])) && r[j] == xs[FirstIndex(xs, key, key(r[j]))];
  }

  /** For every key of `xs`, its first element is kept. */
  lemma KeepFirstKeeps<T, K(!new)>(xs: seq<T>, key: T -> K, k: K)
    requires HasKey(xs, key, k)
    ensures xs[FirstIndex(xs, key, k)] in KeepFirst(xs, key)
  {
    var r := KeepFirst(xs, key);
    assert HasKey(r, key, k);
    var j :| 0 <= j < |r| && key(r[j]) == k;
    KeepFirstMember(xs, key, r[j]);
  }

  /** Appending elements whose keys are all already present changes nothing. */
  lemma {:induction false} KeepFirstAbsorbs<T, K(!new)>(xs: seq<T>, ys: seq<T>, key: T -> K)
    requires forall j :: 0 <= j < |ys| ==> HasKey(xs, key, key(ys[j]))
    ensures KeepFirst(xs + ys, key) == KeepFirst(xs, key)
  {
    if |ys| > 0 {
      var q, y := ys[..|ys| - 1], ys[|ys| - 1];
      assert (xs + ys)[..|xs + ys| - 1] == xs + q;
      assert (xs + ys)[|xs + ys| - 1] == y;
      KeepFirstAbsorbs(xs, q, key);
      var d := KeepFirst(xs + q, key);
      assert HasKey(xs, key, key(y));
      assert HasKey(d, key, key(y));
      assert KeepFirst(xs + ys, key) == d;
    } else {
      assert xs + ys == xs;
    }
  }

  /** Sequences whose keys are already unique are left as they are. */
  lemma {:induction false} KeepFirstOfUnique<T, K(!new)>(xs: seq<T>, key: T -> K)
    requires UniqueKeys(xs, key)
    ensures KeepFirst(xs, key) == xs
  {
    if |xs| > 0 {
      var p, x := xs[..|xs| - 1], xs[|xs| - 1];
      assert xs == p + [x];
      assert UniqueKeys(p, key);
      KeepFirstOfUnique(p, key);
      assert forall i :: 0 <= i < |p| ==> key(p[i]) == key(xs[i]) != key(x);
    }
  }

  /** De-duplicating a concatenation and then appending the same tail again
      and de-duplicating once more gives the same sequence. */
  lemma KeepFirstIdempotentMerge<T, K(!new)>(xs: seq<T>, ys: seq<T>, key: T -> K)
    ensures KeepFirst(KeepFirst(xs + ys, key) + ys, key) == KeepFirst(xs + ys, key)
  {
    var d := KeepFirst(xs + ys, key);
    forall j | 0 <= j < |ys|
      ensures HasKey(d, key, key(ys[j]))
    {
      assert key((xs + ys)[|xs| + j]) == key(ys[j]);
    }
    KeepFirstAbsorbs(d, ys, key);
    KeepFirstOfUnique(d, key);
  }
}

=== FILE: importer.dfy ===
/** `importTransactions` and `mapAbiCodes`: from the raw CSV lines to
    categorised transactions. Reading the files and `float()` are outside
    the model: the export's lines arrive as a sequence and the conversion
    of a normalised decimal string to cents is a parameter. */
module Importer {
  import opened Wrappers
  import opened PyStr
  import opened Transactions
  import Dedup
  import Cleaner
  import Categorizer

  // ---------------------------------------------------------------------
  // Amounts
  // ---------------------------------------------------------------------

  /** `s.replace('.', '').replace(',', '.')`: Italian thousands separators
      are dropped and the decimal comma becomes a point. */
  function NormalizeDecimal(s: string): (r: string)
  {
    ReplaceAll(RemoveAll(s, '.'), ',', '.')
  }

  /** No comma survives; there are as many points as the input had commas;
      the length shrinks by the number of points; every other character is
      kept with its count. */
  lemma NormalizeDecimalCounts(s: string)
    ensures ',' !in NormalizeDecimal(s)
    ensures multiset(NormalizeDecimal(s))['.'] == multiset(s)[',']
    ensures |NormalizeDecimal(s)| == |s| - multiset(s)['.']
    ensures forall c :: c != '.' && c != ',' ==> multiset(NormalizeDecimal(s))[c] == multiset(s)[c]
  {
    var t := RemoveAll(s, '.');
    var r := NormalizeDecimal(s);
    ReplaceAllCounts(t, ',', '.');
    assert |t| == |multiset(t)| == |multiset(s)| - multiset(s)['.'];
    assert multiset(r)[','] == 0;
  }

  /** IMPORTO: AVERE when DARE is NaN, otherwise minus DARE, even when
      AVERE is filled in as well. */
  function SignedAmount(debit: Option<int>, credit: Option<int>): (r: Option<int>)
    ensures debit.Some? ==> r == Some(-debit.value)
    ensures debit.None? ==> r == credit
  {
    if debit.None? then credit else Some(-debit.value)
  }

  /** A debit of a positive sum is always an outflow; without a debit the
      sign is the credit's. */
  lemma SignedAmountSign(debit: Option<int>, credit: Option<int>)
    ensures debit.Some? && debit.value > 0 ==> SignedAmount(debit, credit).value < 0
    ensures debit.None? && credit.Some? ==>
              (SignedAmount(debit, credit).value < 0 <==> credit.value < 0)
  {
  }

  /** The amount of a raw line: both cells normalised, converted by
      `toCents` (`astype('float')`, in cents), then signed. */
  function RawAmount(row: RawRow, toCents: string -> int): (r: Option<int>)
    ensures row.debit.Some? ==> r == Some(-toCents(NormalizeDecimal(row.debit.value)))
    ensures row.debit.None? ==> (r.Some? <==> row.credit.Some?)
    ensures row.debit.None? && row.credit.Some? ==> r == Some(toCents(NormalizeDecimal(row.credit.value)))
  {
    var debit := if row.debit.Some? then Some(toCents(NormalizeDecimal(row.debit.value))) else None;
    var credit := if row.credit.Some? then Some(toCents(NormalizeDecimal(row.credit.value))) else None;
    SignedAmount(debit, credit)
  }

  // ---------------------------------------------------------------------
  // Row filtering
  // ---------------------------------------------------------------------

  function RawIdentity(row: RawRow): RawRow
  {
    row
  }

  /** `drop_duplicates()` over whole lines, keeping the first copy: every
      distinct line once, in the order of its first occurrence. */
  function DropDuplicateRows(rows: seq<RawRow>): (r: seq<RawRow>)
    ensures forall i, j :: 0 <= i < j < |r| ==> r[i] != r[j]
    ensures forall x :: x in r <==> x in rows
    ensures forall i, j :: 0 <= i < j < |r| ==>
              Dedup.HasKey(rows, RawIdentity, r[i]) && Dedup.HasKey(rows, RawIdentity, r[j])
              && Dedup.FirstIndex(rows, RawIdentity, r[i]) < Dedup.FirstIndex(rows, RawIdentity, r[j])
  {
    var r := Dedup.KeepFirst(rows, RawIdentity);
    forall i, j | 0 <= i < j < |r|
      ensures Dedup.HasKey(rows, RawIdentity, r[i]) && Dedup.HasKey(rows, RawIdentity, r[j])
      ensures Dedup.FirstIndex(rows, RawIdentity, r[i]) < Dedup.FirstIndex(rows, RawIdentity, r[j])
    {
      Dedup.KeepFirstOrder(rows, RawIdentity, i, j);
      assert RawIdentity(r[i]) == r[i] && RawIdentity(r[j]) == r[j];
    }
    forall i, j | 0 <= i < j < |r|
      ensures r[i] != r[j]
    {
      assert RawIdentity(r[i]) != RawIdentity(r[j]);
    }
    forall x | x in rows
      ensures x in r
    {
      var i :| 0 <= i < |rows| && rows[i] == x;
      assert Dedup.HasKey(rows, RawIdentity, RawIdentity(rows[i]));
      var j :| 0 <= j < |r| && RawIdentity(r[j]) == x;
    }
    r
  }

  /** `dropna(subset='CAUSALE ABI')`: lines without a reason code go, the
      others keep their order. */
  function DropMissingReason(rows: seq<RawRow>): (r: seq<RawRow>)
    ensures |r| <= |rows|
    ensures forall i :: 0 <= i < |r| ==> r[i].reasonCode.Some?
    ensures forall x :: x in r <==> x in rows && x.reasonCode.Some?
  {
    if |rows| == 0 then []
    else
      var init := DropMissingReason(rows[..|rows| - 1]);
      var x := rows[|rows| - 1];
      assert rows == rows[..|rows| - 1] + [x];
      if x.reasonCode.Some? then init + [x] else init
  }

  /** The filter works piece by piece, so the kept lines stay in input
      order and keep their multiplicity. */
  lemma {:induction false} DropMissingReasonConcat(a: seq<RawRow>, b: seq<RawRow>)
    ensures DropMissingReason(a + b) == DropMissingReason(a) + DropMissingReason(b)
  {
    if |b| == 0 {
      assert a + b == a;
    } else {
      var q := b[..|b| - 1];
      assert (a + b)[..|a + b| - 1] == a + q;
      assert (a + b)[|a + b| - 1] == b[|b| - 1];
      DropMissingReasonConcat(a, q);
    }
  }

  // ---------------------------------------------------------------------
  // mapAbiCodes
  // ---------------------------------------------------------------------

  /** The label of one code: `""` for a missing code, otherwise the table
      entry for `str(code)`, when there is one. */
  function AbiLabel(code: Option<int>, table: map<string, string>): Option<string>
  {
    if code.None? then Some("")
    else if IntToString(code.value) in table then Some(table[IntToString(code.value)])
    else None
  }

  /** `mapAbiCodes`: maps every code; the first code without a label aborts
      the whole mapping with that code's key. */
  function MapAbiCodes(codes: seq<Option<int>>, table: map<string, string>): (r: Result<seq<string>, Error>)
    ensures r.Success? <==> forall i :: 0 <= i < |codes| ==> AbiLabel(codes[i], table).Some?
    ensures r.Success? ==> |r.value| == |codes|
    ensures r.Success? ==> forall i :: 0 <= i < |codes| ==>
              r.value[i] == (if codes[i].None? then "" else table[IntToString(codes[i].value)])
    ensures r.Failure? ==>
              exists i :: 0 <= i < |codes| && AbiLabel(codes[i], table).None?
                && (forall j :: 0 <= j < i ==> AbiLabel(codes[j], table).Some?)
                && r.error == MissingAbiCode(IntToString(codes[i].value))
  {
    if |codes| == 0 then Success([])
    else
      match AbiLabel(codes[0], table)
      case None => Failure(MissingAbiCode(IntToString(codes[0].value)))
      case Some(first) =>
        var rest := MapAbiCodes(codes[1..], table);
        if rest.Failure? then
          var i :| 0 <= i < |codes[1..]| && AbiLabel(codes[1..][i], table).None?
                   && (forall j :: 0 <= j < i ==> AbiLabel(codes[1..][j], table).Some?)
                   && rest.error == MissingAbiCode(IntToString(codes[1..][i].value));
          assert AbiLabel(codes[i + 1], table).None?;
          assert forall j :: 1 <= j < i + 1 ==> codes[j] == codes[1..][j - 1];
          Failure(rest.error)
        else
          assert forall i :: 1 <= i < |codes| ==> codes[i] == codes[1..][i - 1];
          Success([first] + rest.value)
  }

  /** The key that failed names its code exactly: it parses back to it,
      and distinct codes have distinct keys. */
  lemma MissingCodeNamesIt(codes: seq<Option<int>>, table: map<string, string>)
    requires MapAbiCodes(codes, table).Failure?
    ensures exists i :: 0 <= i < |codes| && codes[i].Some?
              && ParseInt(MapAbiCodes(codes, table).error.code) == codes[i].value
              && IntToString(codes[i].value) !in table
  {
    var i :| 0 <= i < |codes| && AbiLabel(codes[i], table).None?
             && MapAbiCodes(codes, table).error == MissingAbiCode(IntToString(codes[i].value));
    IntToStringRoundTrip(codes[i].value);
  }

  // ---------------------------------------------------------------------
  // importTransactions
  // ---------------------------------------------------------------------

  /** The reason codes of the kept lines. */
  function Codes(rows: seq<RawRow>): (r: seq<Option<int>>)
    ensures |r| == |rows|
    ensures forall i :: 0 <= i < |rows| ==> r[i] == rows[i].reasonCode
  {
    seq(|rows|, i requires 0 <= i < |rows| => rows[i].reasonCode)
  }

  /** One normalised transaction from a kept line and its mapped label.
      CATEGORIA starts empty; the ID is the hash of the raw description. */
  function Normalize(row: RawRow, reason: string, toCents: string -> int, hash: string -> string): Transaction
  {
    Transaction(
      row.booking, row.value, RawAmount(row, toCents), reason, row.description,
      Cleaner.NormalizeDescription(row.description), None, hash(row.description))
  }

  /** The lines that survive both filters. */
  function KeptRows(raw: seq<RawRow>): seq<RawRow>
  {
    DropMissingReason(DropDuplicateRows(raw))
  }

  /** `importTransactions` up to, but not including, the categorisation:
      de-duplicate, drop lines without a code, normalise amounts and
      descriptions, map the codes. */
  function ImportRows(raw: seq<RawRow>, abi: map<string, string>,
                      toCents: string -> int, hash: string -> string): (r: Result<seq<Transaction>, Error>)
    ensures r.Failure? <==> exists i :: 0 <= i < |KeptRows(raw)| && AbiLabel(KeptRows(raw)[i].reasonCode, abi).None?
    ensures r.Failure? ==>
              exists i :: 0 <= i < |KeptRows(raw)| && AbiLabel(KeptRows(raw)[i].reasonCode, abi).None?
                && r.error == MissingAbiCode(IntToString(KeptRows(raw)[i].reasonCode.value))
    ensures r.Success? ==> |r.value| == |KeptRows(raw)|
    ensures r.Success? ==> forall i :: 0 <= i < |r.value| ==>
              var row := KeptRows(raw)[i];
              r.value[i] == Normalize(row, abi[IntToString(row.reasonCode.value)], toCents, hash)
  {
    var kept := KeptRows(raw);
    var labels :- MapAbiCodes(Codes(kept), abi);
    Success(seq(|kept|, i requires 0 <= i < |kept| && |labels| == |kept| =>
      Normalize(kept[i], labels[i], toCents, hash)))
  }

  /** Every kept line has a label for its reason code. */
  ghost predicate AllCodesMapped(raw: seq<RawRow>, abi: map<string, string>)
  {
    forall i :: 0 <= i < |KeptRows(raw)| ==> AbiLabel(KeptRows(raw)[i].reasonCode, abi).Some?
  }

  /** The category the newer loader gives an imported line: the last
      one-off group listing its ID, else the keyword category of an
      outflow, else none. */
  function ImportedCategory(t: Transaction, tax: Taxonomies): Option<string>
  {
    var oneOff := OrderedDict.LastGroupWith(tax.oneOffs, t.id);
    if oneOff.Some? then oneOff
    else if IsOutflow(t) then Some(Categorizer.MapExpensives(Categorizer.KeywordTable(tax.expenseCategories), t.description))
    else None
  }

  /** `importTransactions` of the newer loader. It fails exactly when a kept
      line has an unmapped reason code, naming one such code; otherwise
      there is one transaction per kept line, in order, normalised from
      that line and categorised by one-off ID or keyword. */
  function ImportTransactions(raw: seq<RawRow>, tax: Taxonomies,
                              toCents: string -> int, hash: string -> string): (r: Result<seq<Transaction>, Error>)
    ensures r.Failure? <==> !AllCodesMapped(raw, tax.abiLabels)
    ensures r.Failure? ==>
              exists i :: 0 <= i < |KeptRows(raw)| && AbiLabel(KeptRows(raw)[i].reasonCode, tax.abiLabels).None?
                && r.error == MissingAbiCode(IntToString(KeptRows(raw)[i].reasonCode.value))
    ensures r.Success? ==> |r.value| == |KeptRows(raw)|
    ensures r.Success? ==> forall i :: 0 <= i < |r.value| ==>
              var row := KeptRows(raw)[i];
              var t := Normalize(row, tax.abiLabels[IntToString(row.reasonCode.value)], toCents, hash);
              r.value[i] == t.(category := ImportedCategory(t, tax))
  {
    var rows :- ImportRows(raw, tax.abiLabels, toCents, hash);
    var r := Categorizer.AddExpensiveCategories(rows, tax);
    forall i | 0 <= i < |rows|
      ensures r[i] == rows[i].(category := ImportedCategory(rows[i], tax))
    {
      Categorizer.AddExpensiveCategoriesSemantics(rows, tax, i);
    }
    Success(r)
  }

  /** The lines of the CSV files of the data folder, read one after the
      other and concatenated. */
  function ConcatFiles(files: seq<seq<RawRow>>): seq<RawRow>
  {
    if |files| == 0 then [] else ConcatFiles(files[..|files| - 1]) + files[|files| - 1]
  }

  /** `importTransactions` of the newer loader in the order the code runs
      it, on the list of CSV files read. With no file it returns an empty
      frame before any categorisation. Otherwise the categoriser looks up
      one-off IDs in a frame that has no `ID` column yet, so the first
      listed one-off id raises `KeyError`. With no one-off ids it agrees
      with `ImportTransactions`, which gives every row its ID before
      categorising. */
  function ImportTransactionsAsWritten(files: seq<seq<RawRow>>, tax: Taxonomies,
                                       toCents: string -> int, hash: string -> string): (r: Result<seq<Transaction>, Error>)
    ensures |files| == 0 ==> r == Success([])
    ensures |files| > 0 ==>
              (r.Failure? <==> !AllCodesMapped(ConcatFiles(files), tax.abiLabels) || |OrderedDict.Flatten(tax.oneOffs)| > 0)
    ensures r.Success? ==> r == ImportTransactions(ConcatFiles(files), tax, toCents, hash)
  {
    if |files| == 0 then
      assert |ImportTransactions([], tax, toCents, hash).value| == |KeptRows([])| == 0;
      Success([])
    else
      var rows :- ImportRows(ConcatFiles(files), tax.abiLabels, toCents, hash);
      if |OrderedDict.Flatten(tax.oneOffs)| > 0 then Failure(MissingIdColumn)
      else Success(Categorizer.AddExpensiveCategories(rows, tax))
  }

  /** Where the two orders part: once at least one CSV file is read and its
      lines all map, the import as written fails as soon as a one-off id is
      listed, while the corrected import succeeds and applies that id's
      category. */
  lemma OneOffsBreakImport(files: seq<seq<RawRow>>, tax: Taxonomies, toCents: string -> int, hash: string -> string)
    requires |files| > 0
    requires AllCodesMapped(ConcatFiles(files), tax.abiLabels)
    requires |OrderedDict.Flatten(tax.oneOffs)| > 0
    ensures ImportTransactionsAsWritten(files, tax, toCents, hash) == Failure(MissingIdColumn)
    ensures ImportTransactions(ConcatFiles(files), tax, toCents, hash).Success?
  {
  }

  /** `importTransactions` of the legacy loader: the same steps with the
      legacy categoriser, which categorises outflows only and knows no
      one-off IDs. */
  function ImportTransactionsLegacy(raw: seq<RawRow>, tax: Taxonomies,
                                    toCents: string -> int, hash: string -> string): (r: Result<seq<Transaction>, Error>)
    ensures r.Failure? <==> !AllCodesMapped(raw, tax.abiLabels)
    ensures r.Failure? ==>
              exists i :: 0 <= i < |KeptRows(raw)| && AbiLabel(KeptRows(raw)[i].reasonCode, tax.abiLabels).None?
                && r.error == MissingAbiCode(IntToString(KeptRows(raw)[i].reasonCode.value))
    ensures r.Success? ==> |r.value| == |KeptRows(raw)|
    ensures r.Success? ==> forall i :: 0 <= i < |r.value| ==>
              var row := KeptRows(raw)[i];
              var t := Normalize(row, tax.abiLabels[IntToString(row.reasonCode.value)], toCents, hash);
              r.value[i] == t.(category := if IsOutflow(t)
                then Some(Categorizer.MapExpensives(Categorizer.KeywordTable(tax.expenseCategories), t.description))
                else None)
  {
    var rows :- ImportRows(raw, tax.abiLabels, toCents, hash);
    Success(Categorizer.AddExpensiveCategoriesLegacy(rows, tax))
  }

  /** Every imported transaction comes from one line of the export that has
      a reason code, carries that line's dates and description, and its
      amount is minus the debit or else the credit. */
  lemma ImportedRowsTraceBack(raw: seq<RawRow>, tax: Taxonomies,
                              toCents: string -> int, hash: string -> string, i: int)
    requires ImportTransactions(raw, tax, toCents, hash).Success?
    requires 0 <= i < |ImportTransactions(raw, tax, toCents, hash).value|
    ensures var t := ImportTransactions(raw, tax, toCents, hash).value[i];
            exists row :: row in raw && row.reasonCode.Some?
              && t.booking == row.booking && t.value == row.value
              && t.description == row.description
              && t.desc == Cleaner.NormalizeDescription(row.description)
              && t.id == hash(row.description)
              && t.amount == RawAmount(row, toCents)
  {
    var rows := ImportRows(raw, tax.abiLabels, toCents, hash).value;
    Categorizer.AddExpensiveCategoriesSemantics(rows, tax, i);
    var row := KeptRows(raw)[i];
    assert row in KeptRows(raw);
  }
}

=== FILE: ledger.dfy ===
/** `loadTransactions`: the persisted ledger and the freshly imported lines
    are merged, keeping one row per (VALUTA, IMPORTO) with the persisted
    row first in line; an empty result is an error; the rows get their ID,
    are sorted newest first and receive their month, quarter and year. */
module Ledger {
  import opened Wrappers
  import opened Transactions
  import Dedup
  import Categorizer
  import Importer
  import PyStr

  // ---------------------------------------------------------------------
  // Ordering
  // ---------------------------------------------------------------------

  lemma DateLeTotal(a: Date, b: Date)
    ensures DateLe(a, b) || DateLe(b, a)
    ensures DateLe(a, b) && DateLe(b, a) ==> a == b
  {
  }

  lemma DateLeTransitive(a: Date, b: Date, c: Date)
    requires DateLe(a, b) && DateLe(b, c)
    ensures DateLe(a, c)
  {
  }

  /** A `sort_values` key: the first column, then the second. */
  datatype SortKey = SortKey(primary: Date, secondary: Date)

  /** Lexicographic order on keys. */
  predicate KeyLe(a: SortKey, b: SortKey)
  {
    DateLe(a.primary, b.primary) && (a.primary == b.primary ==> DateLe(a.secondary, b.secondary))
  }

  lemma KeyLeTotal(a: SortKey, b: SortKey)
    ensures KeyLe(a, b) || KeyLe(b, a)
  {
    DateLeTotal(a.primary, b.primary);
    DateLeTotal(a.secondary, b.secondary);
  }

  lemma KeyLeTransitive(a: SortKey, b: SortKey, c: SortKey)
    requires KeyLe(a, b) && KeyLe(b, c)
    ensures KeyLe(a, c)
  {
    DateLeTransitive(a.primary, b.primary, c.primary);
    DateLeTotal(a.primary, b.primary);
    DateLeTotal(b.primary, c.primary);
    if a.primary == c.primary {
      DateLeTransitive(a.secondary, b.secondary, c.secondary);
    }
  }

  /** The key of the newer loader: `by=['VALUTA', 'DATA']`. */
  function ValueThenBooking(t: Transaction): SortKey
  {
    SortKey(t.value, t.booking)
  }

  /** The key of the legacy loader: `by=['VALUTA']`. */
  function ValueOnly(t: Transaction): SortKey
  {
    SortKey(t.value, t.value)
  }

  /** `ascending=False`: no row is followed by a row with a greater key. */
  predicate SortedDesc(xs: seq<Transaction>, key: Transaction -> SortKey)
  {
    forall i, j :: 0 <= i < j < |xs| ==> KeyLe(key(xs[j]), key(xs[i]))
  }

  /** Places `x` in front of the first element whose key is not greater. */
  function Insert(x: Transaction, xs: seq<Transaction>, key: Transaction -> SortKey): (r: seq<Transaction>)
    ensures multiset(r) == multiset(xs) + multiset{x}
    ensures forall y :: y in r <==> y == x || y in xs
  {
    if |xs| == 0 then [x]
    else if KeyLe(key(xs[0]), key(x)) then [x] + xs
    else
      assert xs == [xs[0]] + xs[1..];
      [xs[0]] + Insert(x, xs[1..], key)
  }

  lemma {:induction false} InsertSorted(x: Transaction, xs: seq<Transaction>, key: Transaction -> SortKey)
    requires SortedDesc(xs, key)
    ensures SortedDesc(Insert(x, xs, key), key)
  {
    if |xs| > 0 {
      KeyLeTotal(key(xs[0]), key(x));
      if !KeyLe(key(xs[0]), key(x)) {
        var rest := Insert(x, xs[1..], key);
        InsertSorted(x, xs[1..], key);
        var r := [xs[0]] + rest;
        forall i, j | 0 <= i < j < |r|
          ensures KeyLe(key(r[j]), key(r[i]))
        {
          if i == 0 {
            assert r[j] in rest;
            assert r[j] == x || r[j] in xs[1..];
            if r[j] != x {
              var k :| 0 <= k < |xs[1..]| && xs[1..][k] == r[j];
              assert xs[k + 1] == r[j];
            }
          } else {
            assert r[i] == rest[i - 1] && r[j] == rest[j - 1];
          }
        }
      } else {
        var r := [x] + xs;
        forall i, j | 0 <= i < j < |r|
          ensures KeyLe(key(r[j]), key(r[i]))
        {
          if i == 0 {
            if j > 1 {
              KeyLeTransitive(key(xs[j - 1]), key(xs[0]), key(x));
            }
          } else {
            assert r[i] == xs[i - 1] && r[j] == xs[j - 1];
          }
        }
      }
    }
  }

  /** `sort_values(by=..., ascending=False)` as an insertion sort: the
      result is a permutation of the input. */
  function SortDesc(xs: seq<Transaction>, key: Transaction -> SortKey): (r: seq<Transaction>)
    ensures multiset(r) == multiset(xs)
    ensures |r| == |xs|
  {
    if |xs| == 0 then []
    else
      assert xs == [xs[0]] + xs[1..];
      var r := Insert(xs[0], SortDesc(xs[1..], key), key);
      assert |r| == |multiset(r)|;
      r
  }

  /** The sort puts the rows newest first. */
  lemma {:induction false} SortDescSorted(xs: seq<Transaction>, key: Transaction -> SortKey)
    ensures SortedDesc(SortDesc(xs, key), key)
  {
    if |xs| > 0 {
      SortDescSorted(xs[1..], key);
      InsertSorted(xs[0], SortDesc(xs[1..], key), key);
    }
  }

  // ---------------------------------------------------------------------
  // Merge
  // ---------------------------------------------------------------------

  /** The duplicate key of the merge: (VALUTA, IMPORTO). */
  function MergeKey(t: Transaction): (Date, Option<int>)
  {
    (t.value, t.amount)
  }

  lemma HasKeyConcat<T, K(!new)>(xs: seq<T>, ys: seq<T>, key: T -> K, k: K)
    ensures Dedup.HasKey(xs + ys, key, k) <==> Dedup.HasKey(xs, key, k) || Dedup.HasKey(ys, key, k)
  {
    if Dedup.HasKey(xs + ys, key, k) {
      var i :| 0 <= i < |xs + ys| && key((xs + ys)[i]) == k;
      if i < |xs| { assert key(xs[i]) == k; } else { assert key(ys[i - |xs|]) == k; }
    }
    if Dedup.HasKey(xs, key, k) {
      var i :| 0 <= i < |xs| && key(xs[i]) == k;
      assert key((xs + ys)[i]) == k;
    }
    if Dedup.HasKey(ys, key, k) {
      var i :| 0 <= i < |ys| && key(ys[i]) == k;
      assert key((xs + ys)[|xs| + i]) == k;
    }
  }

  /** The ledger rows, then the imported rows, de-duplicated on (VALUTA,
      IMPORTO) keeping the first: no (VALUTA, IMPORTO) pair twice, no pair lost, and
      every row comes from one of the two inputs. */
  function Merge(persisted: seq<Transaction>, incoming: seq<Transaction>): (r: seq<Transaction>)
    ensures Dedup.UniqueKeys(r, MergeKey)
    ensures forall k :: Dedup.HasKey(r, MergeKey, k) <==>
              Dedup.HasKey(persisted, MergeKey, k) || Dedup.HasKey(incoming, MergeKey, k)
    ensures forall t :: t in r ==> t in persisted || t in incoming
  {
    var r := Dedup.KeepFirst(persisted + incoming, MergeKey);
    forall k
      ensures Dedup.HasKey(r, MergeKey, k) <==>
              Dedup.HasKey(persisted, MergeKey, k) || Dedup.HasKey(incoming, MergeKey, k)
    {
      HasKeyConcat(persisted, incoming, MergeKey, k);
    }
    r
  }

  /** On a clash the persisted row wins: for every pair the persisted
      ledger holds, the merge keeps the first persisted row with it. */
  lemma MergePersistedWins(persisted: seq<Transaction>, incoming: seq<Transaction>, i: int)
    requires 0 <= i < |persisted|
    ensures persisted[Dedup.FirstIndex(persisted, MergeKey, MergeKey(persisted[i]))]
            in Merge(persisted, incoming)
  {
    var k := MergeKey(persisted[i]);
    assert Dedup.HasKey(persisted, MergeKey, k);
    Dedup.FirstIndexConcat(persisted, incoming, MergeKey, k);
    Dedup.KeepFirstKeeps(persisted + incoming, MergeKey, k);
  }

  /** An incoming row survives only when the persisted ledger has no row
      with its pair. */
  lemma MergeIncomingOnlyIfNew(persisted: seq<Transaction>, incoming: seq<Transaction>, t: Transaction)
    requires t in Merge(persisted, incoming) && t !in persisted
    ensures t in incoming
    ensures !Dedup.HasKey(persisted, MergeKey, MergeKey(t))
  {
    Dedup.KeepFirstMember(persisted + incoming, MergeKey, t);
    if Dedup.HasKey(persisted, MergeKey, MergeKey(t)) {
      Dedup.FirstIndexConcat(persisted, incoming, MergeKey, MergeKey(t));
    }
  }

  /** The merge is empty only when both inputs are. */
  lemma MergeEmpty(persisted: seq<Transaction>, incoming: seq<Transaction>)
    ensures |Merge(persisted, incoming)| == 0 <==> |persisted| == 0 && |incoming| == 0
  {
    if |incoming| > 0 {
      assert Dedup.HasKey(incoming, MergeKey, MergeKey(incoming[0]));
    }
    if |persisted| > 0 {
      assert Dedup.HasKey(persisted, MergeKey, MergeKey(persisted[0]));
    }
  }

  /** Importing the same lines a second time adds nothing. */
  lemma MergeIdempotent(persisted: seq<Transaction>, incoming: seq<Transaction>)
    ensures Merge(Merge(persisted, incoming), incoming) == Merge(persisted, incoming)
  {
    Dedup.KeepFirstIdempotentMerge(persisted, incoming, MergeKey);
  }

  // ---------------------------------------------------------------------
  // Periods
  // ---------------------------------------------------------------------

  /** A pandas period: a year and the month or quarter within it. */
  datatype Period = Period(year: int, index: int)

  /** The quarter of a month, counted from 1. */
  function QuarterOf(m: MonthNum): (q: int)
    ensures 1 <= q <= 4
    ensures 3 * q - 2 <= m <= 3 * q
  {
    (m - 1) / 3 + 1
  }

  /** A row of the output sheet: the transaction and its MESE, TRIMESTRE
      and ANNO. */
  datatype Booked = Booked(t: Transaction, month: Period, quarter: Period, year: int)

  /** The periods of `b` are those of its VALUTA date. */
  predicate PeriodsOfValue(b: Booked)
  {
    b.month == Period(b.t.value.year, b.t.value.month)
    && b.quarter.year == b.t.value.year
    && 1 <= b.quarter.index <= 4
    && 3 * b.quarter.index - 2 <= b.t.value.month <= 3 * b.quarter.index
    && b.year == b.t.value.year
  }

  /** The three period columns, from VALUTA alone. */
  function Book(t: Transaction): (b: Booked)
    ensures b.t == t && PeriodsOfValue(b)
  {
    var v := t.value;
    Booked(t, Period(v.year, v.month), Period(v.year, QuarterOf(v.month)), v.year)
  }

  /** Rows in the same month share quarter and year, and rows with the same
      VALUTA share all three periods. */
  lemma PeriodsAgree(a: Booked, b: Booked)
    requires PeriodsOfValue(a) && PeriodsOfValue(b)
    ensures a.month == b.month ==> a.quarter == b.quarter && a.year == b.year
    ensures a.t.value == b.t.value ==> a.month == b.month && a.quarter == b.quarter && a.year == b.year
  {
  }

  function BookAll(rows: seq<Transaction>): (r: seq<Booked>)
    ensures |r| == |rows|
    ensures forall i :: 0 <= i < |rows| ==> r[i].t == rows[i] && PeriodsOfValue(r[i])
  {
    seq(|rows|, i requires 0 <= i < |rows| => Book(rows[i]))
  }

  /** The transactions of the output rows. */
  function Txns(rows: seq<Booked>): (r: seq<Transaction>)
    ensures |r| == |rows|
    ensures forall i :: 0 <= i < |rows| ==> r[i] == rows[i].t
  {
    seq(|rows|, i requires 0 <= i < |rows| => rows[i].t)
  }

  // ---------------------------------------------------------------------
  // loadTransactions
  // ---------------------------------------------------------------------

  /** The ID column: the hash of each raw description, the hash being a
      parameter. */
  function StampIds(rows: seq<Transaction>, hash: string -> string): (r: seq<Transaction>)
    ensures |r| == |rows|
    ensures forall i :: 0 <= i < |rows| ==> r[i] == rows[i].(id := hash(rows[i].description))
  {
    seq(|rows|, i requires 0 <= i < |rows| => rows[i].(id := hash(rows[i].description)))
  }

  /** Stamping ids does not touch the merge key, and equal descriptions get
      equal ids. */
  lemma StampIdsKeys(rows: seq<Transaction>, hash: string -> string, i: int, j: int)
    requires 0 <= i < |rows| && 0 <= j < |rows|
    ensures MergeKey(StampIds(rows, hash)[i]) == MergeKey(rows[i])
    ensures rows[i].description == rows[j].description ==>
              StampIds(rows, hash)[i].id == StampIds(rows, hash)[j].id
  {
  }

  /** The rows before sorting in the newer loader: the persisted ledger,
      when there is one, is given ids and re-categorised, then merged with
      the imported rows; without a ledger the imported rows are taken as
      they are, with no merge. */
  function Combined(persisted: Option<seq<Transaction>>, incoming: seq<Transaction>,
                    tax: Taxonomies, hash: string -> string): seq<Transaction>
  {
    match persisted
    case None => incoming
    case Some(p) => Merge(Categorizer.AddExpensiveCategories(StampIds(p, hash), tax), incoming)
  }

  lemma CombinedEmpty(persisted: Option<seq<Transaction>>, incoming: seq<Transaction>,
                      tax: Taxonomies, hash: string -> string)
    ensures |Combined(persisted, incoming, tax, hash)| == 0 <==>
            |incoming| == 0 && (persisted.None? || |persisted.value| == 0)
  {
    if persisted.Some? {
      MergeEmpty(Categorizer.AddExpensiveCategories(StampIds(persisted.value, hash), tax), incoming);
    }
  }

  /** `loadTransactions` of the newer loader after the import. */
  function Assemble(persisted: Option<seq<Transaction>>, incoming: seq<Transaction>,
                    tax: Taxonomies, hash: string -> string): (r: Result<seq<Booked>, Error>)
    ensures r.Failure? <==> |incoming| == 0 && (persisted.None? || |persisted.value| == 0)
    ensures r.Failure? ==> r.error == EmptyDataset
    ensures r.Success? ==> multiset(Txns(r.value)) == multiset(StampIds(Combined(persisted, incoming, tax, hash), hash))
    ensures r.Success? ==> forall i :: 0 <= i < |r.value| ==>
              PeriodsOfValue(r.value[i]) && r.value[i].t.id == hash(r.value[i].t.description)
  {
    var merged := Combined(persisted, incoming, tax, hash);
    CombinedEmpty(persisted, incoming, tax, hash);
    if |merged| == 0 then Failure(EmptyDataset)
    else
      var sorted := SortDesc(StampIds(merged, hash), ValueThenBooking);
      SortedStampedIds(merged, hash, ValueThenBooking);
      BookAllTxns(sorted);
      Success(BookAll(sorted))
  }

  /** The output rows are the booked rows themselves. */
  lemma BookAllTxns(rows: seq<Transaction>)
    ensures Txns(BookAll(rows)) == rows
  {
  }

  /** Sorting the stamped rows keeps each row's ID the hash of its own
      description. */
  lemma SortedStampedIds(rows: seq<Transaction>, hash: string -> string, key: Transaction -> SortKey)
    ensures forall i :: 0 <= i < |SortDesc(StampIds(rows, hash), key)| ==>
              SortDesc(StampIds(rows, hash), key)[i].id == hash(SortDesc(StampIds(rows, hash), key)[i].description)
  {
    var stamped := StampIds(rows, hash);
    var sorted := SortDesc(stamped, key);
    forall i | 0 <= i < |sorted|
      ensures sorted[i].id == hash(sorted[i].description)
    {
      assert sorted[i] in multiset(stamped);
      var j :| 0 <= j < |stamped| && stamped[j] == sorted[i];
    }
  }

  /** The output is sorted newest first by (VALUTA, DATA). */
  lemma AssembleSorted(persisted: Option<seq<Transaction>>, incoming: seq<Transaction>,
                       tax: Taxonomies, hash: string -> string)
    requires Assemble(persisted, incoming, tax, hash).Success?
    ensures SortedDesc(Txns(Assemble(persisted, incoming, tax, hash).value), ValueThenBooking)
  {
    var merged := Combined(persisted, incoming, tax, hash);
    var sorted := SortDesc(StampIds(merged, hash), ValueThenBooking);
    SortDescSorted(StampIds(merged, hash), ValueThenBooking);
    assert Txns(BookAll(sorted)) == sorted;
  }

  // ---------------------------------------------------------------------
  // Pairs in the output
  // ---------------------------------------------------------------------

  /** Sequences that agree on the merge key position by position hold the
      same pairs. */
  lemma SamePairsPointwise(a: seq<Transaction>, b: seq<Transaction>)
    requires |a| == |b| && forall i :: 0 <= i < |a| ==> MergeKey(a[i]) == MergeKey(b[i])
    ensures forall k :: Dedup.HasKey(a, MergeKey, k) <==> Dedup.HasKey(b, MergeKey, k)
    ensures Dedup.UniqueKeys(a, MergeKey) ==> Dedup.UniqueKeys(b, MergeKey)
  {
    forall k | Dedup.HasKey(a, MergeKey, k)
      ensures Dedup.HasKey(b, MergeKey, k)
    {
      var i :| 0 <= i < |a| && MergeKey(a[i]) == k;
      assert MergeKey(b[i]) == k;
    }
    forall k | Dedup.HasKey(b, MergeKey, k)
      ensures Dedup.HasKey(a, MergeKey, k)
    {
      var i :| 0 <= i < |b| && MergeKey(b[i]) == k;
      assert MergeKey(a[i]) == k;
    }
  }

  /** A permutation holds the same pairs. */
  lemma SamePairsPermutation(a: seq<Transaction>, b: seq<Transaction>)
    requires multiset(a) == multiset(b)
    ensures forall k :: Dedup.HasKey(a, MergeKey, k) <==> Dedup.HasKey(b, MergeKey, k)
  {
    forall k | Dedup.HasKey(a, MergeKey, k)
      ensures Dedup.HasKey(b, MergeKey, k)
    {
      var i :| 0 <= i < |a| && MergeKey(a[i]) == k;
      assert a[i] in multiset(b);
      var j :| 0 <= j < |b| && b[j] == a[i];
    }
    forall k | Dedup.HasKey(b, MergeKey, k)
      ensures Dedup.HasKey(a, MergeKey, k)
    {
      var i :| 0 <= i < |b| && MergeKey(b[i]) == k;
      assert b[i] in multiset(a);
      var j :| 0 <= j < |a| && a[j] == b[i];
    }
  }

  lemma {:induction false} InsertUniquePairs(x: Transaction, xs: seq<Transaction>, key: Transaction -> SortKey)
    requires Dedup.UniqueKeys(xs, MergeKey) && !Dedup.HasKey(xs, MergeKey, MergeKey(x))
    ensures Dedup.UniqueKeys(Insert(x, xs, key), MergeKey)
  {
    if |xs| > 0 && !KeyLe(key(xs[0]), key(x)) {
      var tail := xs[1..];
      assert Dedup.UniqueKeys(tail, MergeKey) by {
        forall i, j | 0 <= i < j < |tail|
          ensures MergeKey(tail[i]) != MergeKey(tail[j])
        {
          assert tail[i] == xs[i + 1] && tail[j] == xs[j + 1];
        }
      }
      assert !Dedup.HasKey(tail, MergeKey, MergeKey(x)) by {
        forall i | 0 <= i < |tail|
          ensures MergeKey(tail[i]) != MergeKey(x)
        {
          assert tail[i] == xs[i + 1];
        }
      }
      InsertUniquePairs(x, tail, key);
      var rest := Insert(x, tail, key);
      var r := [xs[0]] + rest;
      forall i, j | 0 <= i < j < |r|
        ensures MergeKey(r[i]) != MergeKey(r[j])
      {
        if i == 0 {
          assert r[j] in rest;
          assert MergeKey(xs[0]) != MergeKey(x);
          if r[j] != x {
            var k :| 0 <= k < |tail| && tail[k] == r[j];
            assert xs[k + 1] == r[j];
          }
        } else {
          assert r[i] == rest[i - 1] && r[j] == rest[j - 1];
        }
      }
    } else if |xs| > 0 {
      var r := [x] + xs;
      forall i, j | 0 <= i < j < |r|
        ensures MergeKey(r[i]) != MergeKey(r[j])
      {
        if i == 0 {
          assert r[j] == xs[j - 1];
        } else {
          assert r[i] == xs[i - 1] && r[j] == xs[j - 1];
        }
      }
    }
  }

  /** Sorting does not create a duplicate pair. */
  lemma {:induction false} SortDescUniquePairs(xs: seq<Transaction>, key: Transaction -> SortKey)
    requires Dedup.UniqueKeys(xs, MergeKey)
    ensures Dedup.UniqueKeys(SortDesc(xs, key), MergeKey)
  {
    if |xs| > 0 {
      var tail := xs[1..];
      assert Dedup.UniqueKeys(tail, MergeKey) by {
        forall i, j | 0 <= i < j < |tail|
          ensures MergeKey(tail[i]) != MergeKey(tail[j])
        {
          assert tail[i] == xs[i + 1] && tail[j] == xs[j + 1];
        }
      }
      SortDescUniquePairs(tail, key);
      var sorted := SortDesc(tail, key);
      assert !Dedup.HasKey(sorted, MergeKey, MergeKey(xs[0])) by {
        SamePairsPermutation(sorted, tail);
        forall i | 0 <= i < |tail|
          ensures MergeKey(tail[i]) != MergeKey(xs[0])
        {
          assert tail[i] == xs[i + 1];
        }
      }
      InsertUniquePairs(xs[0], sorted, key);
    }
  }

  /** With a persisted ledger, the output of the newer loader holds exactly
      the (VALUTA, IMPORTO) pairs of the ledger and of the import, each
      once. */
  lemma AssemblePairs(persisted: seq<Transaction>, incoming: seq<Transaction>,
                      tax: Taxonomies, hash: string -> string)
    requires Assemble(Some(persisted), incoming, tax, hash).Success?
    ensures var out := Txns(Assemble(Some(persisted), incoming, tax, hash).value);
            Dedup.UniqueKeys(out, MergeKey)
            && forall k :: Dedup.HasKey(out, MergeKey, k) <==>
                 Dedup.HasKey(persisted, MergeKey, k) || Dedup.HasKey(incoming, MergeKey, k)
  {
    var stamped := StampIds(persisted, hash);
    var p := Categorizer.AddExpensiveCategories(stamped, tax);
    forall i | 0 <= i < |persisted|
      ensures MergeKey(persisted[i]) == MergeKey(p[i])
    {
      Categorizer.AddExpensiveCategoriesSemantics(stamped, tax, i);
    }
    SamePairsPointwise(persisted, p);
    var merged := Merge(p, incoming);
    var rows := StampIds(merged, hash);
    SamePairsPointwise(merged, rows);
    var sorted := SortDesc(rows, ValueThenBooking);
    SortDescUniquePairs(rows, ValueThenBooking);
    SamePairsPermutation(sorted, rows);
    assert Txns(BookAll(sorted)) == sorted;
  }

  // ---------------------------------------------------------------------
  // loadTransactions from the raw export
  // ---------------------------------------------------------------------

  /** The (VALUTA, IMPORTO) pair a raw line will carry once imported. */
  function RawPair(toCents: string -> int): RawRow -> (Date, Option<int>)
  {
    (row: RawRow) => (row.value, Importer.RawAmount(row, toCents))
  }

  /** Imported rows that agree with the kept lines position by position
      on the pair hold the same pairs as those lines. */
  lemma ImportedPairs(raw: seq<RawRow>, rows: seq<Transaction>, toCents: string -> int)
    requires |rows| == |Importer.KeptRows(raw)|
    requires forall i :: 0 <= i < |rows| ==> MergeKey(rows[i]) == RawPair(toCents)(Importer.KeptRows(raw)[i])
    ensures forall k :: Dedup.HasKey(rows, MergeKey, k) <==> Dedup.HasKey(Importer.KeptRows(raw), RawPair(toCents), k)
  {
    var kept := Importer.KeptRows(raw);
    forall k | Dedup.HasKey(rows, MergeKey, k)
      ensures Dedup.HasKey(kept, RawPair(toCents), k)
    {
      var i :| 0 <= i < |rows| && MergeKey(rows[i]) == k;
      assert RawPair(toCents)(kept[i]) == k;
    }
    forall k | Dedup.HasKey(kept, RawPair(toCents), k)
      ensures Dedup.HasKey(rows, MergeKey, k)
    {
      var i :| 0 <= i < |kept| && RawPair(toCents)(kept[i]) == k;
      assert MergeKey(rows[i]) == k;
    }
  }

  /** The newer loader's import holds exactly the pairs of the kept lines. */
  lemma ImportTransactionsPairs(raw: seq<RawRow>, tax: Taxonomies, toCents: string -> int, hash: string -> string)
    requires Importer.ImportTransactions(raw, tax, toCents, hash).Success?
    ensures var rows := Importer.ImportTransactions(raw, tax, toCents, hash).value;
            forall k :: Dedup.HasKey(rows, MergeKey, k) <==> Dedup.HasKey(Importer.KeptRows(raw), RawPair(toCents), k)
  {
    var rows := Importer.ImportTransactions(raw, tax, toCents, hash).value;
    forall i | 0 <= i < |rows|
      ensures MergeKey(rows[i]) == RawPair(toCents)(Importer.KeptRows(raw)[i])
    {
    }
    ImportedPairs(raw, rows, toCents);
  }

  /** The legacy loader's import holds exactly the pairs of the kept lines. */
  lemma ImportTransactionsLegacyPairs(raw: seq<RawRow>, tax: Taxonomies, toCents: string -> int, hash: string -> string)
    requires Importer.ImportTransactionsLegacy(raw, tax, toCents, hash).Success?
    ensures var rows := Importer.ImportTransactionsLegacy(raw, tax, toCents, hash).value;
            forall k :: Dedup.HasKey(rows, MergeKey, k) <==> Dedup.HasKey(Importer.KeptRows(raw), RawPair(toCents), k)
  {
    var rows := Importer.ImportTransactionsLegacy(raw, tax, toCents, hash).value;
    forall i | 0 <= i < |rows|
      ensures MergeKey(rows[i]) == RawPair(toCents)(Importer.KeptRows(raw)[i])
    {
    }
    ImportedPairs(raw, rows, toCents);
  }

  /** `loadTransactions` of the newer loader. An unmapped reason code aborts
      with `MissingAbiCode` before the ledger is touched; otherwise the
      load fails with `EmptyDataset` exactly when no line survives the
      import and there is no ledger, or an empty one; in every other case it
      succeeds. A successful load permutes the merged rows with their IDs
      stamped, is sorted newest first by (VALUTA, DATA), every row carries its ID and
      the periods of its VALUTA, and with a ledger every (VALUTA, IMPORTO)
      pair of the ledger or of the kept lines appears exactly once. */
  function LoadTransactions(persisted: Option<seq<Transaction>>, raw: seq<RawRow>, tax: Taxonomies,
                            toCents: string -> int, hash: string -> string): (r: Result<seq<Booked>, Error>)
    ensures (r.Failure? && r.error.MissingAbiCode?) <==> !Importer.AllCodesMapped(raw, tax.abiLabels)
    ensures !Importer.AllCodesMapped(raw, tax.abiLabels) ==>
              exists i :: 0 <= i < |Importer.KeptRows(raw)|
                && Importer.AbiLabel(Importer.KeptRows(raw)[i].reasonCode, tax.abiLabels).None?
                && r.error == MissingAbiCode(PyStr.IntToString(Importer.KeptRows(raw)[i].reasonCode.value))
    ensures r == Failure(EmptyDataset) <==>
              |Importer.KeptRows(raw)| == 0 && (persisted.None? || |persisted.value| == 0)
    ensures r.Success? <==>
              Importer.AllCodesMapped(raw, tax.abiLabels)
              && !(|Importer.KeptRows(raw)| == 0 && (persisted.None? || |persisted.value| == 0))
    ensures r.Success? ==>
              multiset(Txns(r.value))
              == multiset(StampIds(Combined(persisted, Importer.ImportTransactions(raw, tax, toCents, hash).value, tax, hash), hash))
    ensures r.Success? && persisted.None? ==>
              |r.value| == |Importer.KeptRows(raw)|
              && multiset(Txns(r.value)) == multiset(StampIds(Importer.ImportTransactions(raw, tax, toCents, hash).value, hash))
    ensures r.Success? ==> SortedDesc(Txns(r.value), ValueThenBooking)
    ensures r.Success? ==> forall i :: 0 <= i < |r.value| ==>
              PeriodsOfValue(r.value[i]) && r.value[i].t.id == hash(r.value[i].t.description)
    ensures r.Success? && persisted.Some? ==>
              Dedup.UniqueKeys(Txns(r.value), MergeKey)
              && forall k :: Dedup.HasKey(Txns(r.value), MergeKey, k) <==>
                   Dedup.HasKey(persisted.value, MergeKey, k)
                   || Dedup.HasKey(Importer.KeptRows(raw), RawPair(toCents), k)
  {
    var imported := Importer.ImportTransactions(raw, tax, toCents, hash);
    if imported.Failure? then Failure(imported.error)
    else
      var incoming := imported.value;
      var r := Assemble(persisted, incoming, tax, hash);
      if r.Failure? then r
      else
        AssembleSorted(persisted, incoming, tax, hash);
        ImportTransactionsPairs(raw, tax, toCents, hash);
        if persisted.Some? then
          AssemblePairs(persisted.value, incoming, tax, hash);
          r
        else r
  }

  /** `loadTransactions` of the legacy loader after the import: the ledger
      is merged as read (no ids, no re-categorisation) and sorted by VALUTA
      only. */
  function AssembleLegacy(persisted: Option<seq<Transaction>>, incoming: seq<Transaction>): (r: Result<seq<Booked>, Error>)
    ensures r.Failure? <==> |incoming| == 0 && (persisted.None? || |persisted.value| == 0)
    ensures r.Failure? ==> r.error == EmptyDataset
    ensures r.Success? ==> multiset(Txns(r.value)) == multiset(CombinedLegacy(persisted, incoming))
    ensures r.Success? ==> forall i :: 0 <= i < |r.value| ==> PeriodsOfValue(r.value[i])
  {
    var merged := CombinedLegacy(persisted, incoming);
    assert |merged| == 0 <==> |incoming| == 0 && (persisted.None? || |persisted.value| == 0) by {
      if persisted.Some? { MergeEmpty(persisted.value, incoming); }
    }
    if |merged| == 0 then Failure(EmptyDataset)
    else
      var sorted := SortDesc(merged, ValueOnly);
      BookAllTxns(sorted);
      Success(BookAll(sorted))
  }

  /** The rows before sorting in the legacy loader: the ledger as read,
      merged with the imported rows, or the imported rows alone. */
  function CombinedLegacy(persisted: Option<seq<Transaction>>, incoming: seq<Transaction>): seq<Transaction>
  {
    match persisted
    case None => incoming
    case Some(p) => Merge(p, incoming)
  }

  /** The legacy output is sorted newest first by VALUTA and, when there is
      a ledger, holds each (VALUTA, IMPORTO) pair once. */
  lemma AssembleLegacySorted(persisted: Option<seq<Transaction>>, incoming: seq<Transaction>)
    requires AssembleLegacy(persisted, incoming).Success?
    ensures SortedDesc(Txns(AssembleLegacy(persisted, incoming).value), ValueOnly)
  {
    var merged := CombinedLegacy(persisted, incoming);
    SortDescSorted(merged, ValueOnly);
    assert Txns(BookAll(SortDesc(merged, ValueOnly))) == SortDesc(merged, ValueOnly);
  }

  /** With a persisted ledger, the legacy output holds exactly the pairs of
      the ledger and of the import, each once. */
  lemma AssembleLegacyPairs(persisted: seq<Transaction>, incoming: seq<Transaction>)
    requires AssembleLegacy(Some(persisted), incoming).Success?
    ensures var out := Txns(AssembleLegacy(Some(persisted), incoming).value);
            Dedup.UniqueKeys(out, MergeKey)
            && forall k :: Dedup.HasKey(out, MergeKey, k) <==>
                 Dedup.HasKey(persisted, MergeKey, k) || Dedup.HasKey(incoming, MergeKey, k)
  {
    var merged := Merge(persisted, incoming);
    var sorted := SortDesc(merged, ValueOnly);
    SortDescUniquePairs(merged, ValueOnly);
    SamePairsPermutation(sorted, merged);
    assert Txns(BookAll(sorted)) == sorted;
  }

  /** `loadTransactions` of the legacy loader: the same failures as the
      newer loader and success otherwise; a successful load permutes the
      ledger merged with the import, is sorted newest first by VALUTA
      alone, every row carries the periods of its VALUTA, and with a ledger
      every (VALUTA, IMPORTO) pair of the ledger or of the kept lines
      appears exactly once. */
  function LoadTransactionsLegacy(persisted: Option<seq<Transaction>>, raw: seq<RawRow>, tax: Taxonomies,
                                  toCents: string -> int, hash: string -> string): (r: Result<seq<Booked>, Error>)
    ensures (r.Failure? && r.error.MissingAbiCode?) <==> !Importer.AllCodesMapped(raw, tax.abiLabels)
    ensures !Importer.AllCodesMapped(raw, tax.abiLabels) ==>
              exists i :: 0 <= i < |Importer.KeptRows(raw)|
                && Importer.AbiLabel(Importer.KeptRows(raw)[i].reasonCode, tax.abiLabels).None?
                && r.error == MissingAbiCode(PyStr.IntToString(Importer.KeptRows(raw)[i].reasonCode.value))
    ensures r == Failure(EmptyDataset) <==>
              |Importer.KeptRows(raw)| == 0 && (persisted.None? || |persisted.value| == 0)
    ensures r.Success? <==>
              Importer.AllCodesMapped(raw, tax.abiLabels)
              && !(|Importer.KeptRows(raw)| == 0 && (persisted.None? || |persisted.value| == 0))
    ensures r.Success? ==>
              multiset(Txns(r.value))
              == multiset(CombinedLegacy(persisted, Importer.ImportTransactionsLegacy(raw, tax, toCents, hash).value))
    ensures r.Success? && persisted.None? ==>
              |r.value| == |Importer.KeptRows(raw)|
              && multiset(Txns(r.value)) == multiset(Importer.ImportTransactionsLegacy(raw, tax, toCents, hash).value)
    ensures r.Success? ==> SortedDesc(Txns(r.value), ValueOnly)
    ensures r.Success? ==> forall i :: 0 <= i < |r.value| ==> PeriodsOfValue(r.value[i])
    ensures r.Success? && persisted.Some? ==>
              Dedup.UniqueKeys(Txns(r.value), MergeKey)
              && forall k :: Dedup.HasKey(Txns(r.value), MergeKey, k) <==>
                   Dedup.HasKey(persisted.value, MergeKey, k)
                   || Dedup.HasKey(Importer.KeptRows(raw), RawPair(toCents), k)
  {
    var imported := Importer.ImportTransactionsLegacy(raw, tax, toCents, hash);
    if imported.Failure? then Failure(imported.error)
    else
      var incoming := imported.value;
      var r := AssembleLegacy(persisted, incoming);
      if r.Failure? then r
      else
        AssembleLegacySorted(persisted, incoming);
        ImportTransactionsLegacyPairs(raw, tax, toCents, hash);
        if persisted.Some? then
          AssembleLegacyPairs(persisted.value, incoming);
          r
        else r
  }
}

=== FILE: ordereddict.dfy ===
/** Python's insertion-ordered `dict` with string keys and values, as a
    sequence of entries in iteration order. Assigning an existing key
    replaces its value in place; assigning a new key appends it. The JSON
    taxonomies (category -> keywords, category -> transaction ids) are read
    into such dicts and then inverted by nested comprehensions. */
module OrderedDict {
  import opened Wrappers
  import Dedup

  /** One key/value pair of a dict. */
  datatype Entry = Entry(key: string, value: string)

  /** A JSON list under a key: a category name and its keywords or ids. */
  datatype Group = Group(name: string, members: seq<string>)

  function Id(k: string): string
  {
    k
  }

  /** The keys of `t`, in iteration order. */
  function Keys(t: seq<Entry>): (ks: seq<string>)
    ensures |ks| == |t|
    ensures forall i :: 0 <= i < |t| ==> ks[i] == t[i].key
  {
    seq(|t|, i requires 0 <= i < |t| => t[i].key)
  }

  /** Looking a key up: the value of the first entry carrying it. */
  function Get(t: seq<Entry>, k: string): (r: Option<string>)
    ensures r.None? <==> k !in Keys(t)
  {
    if |t| == 0 then None
    else if t[0].key == k then Some(t[0].value)
    else
      assert Keys(t) == [t[0].key] + Keys(t[1..]);
      Get(t[1..], k)
  }

  lemma KeysCons(e: Entry, t: seq<Entry>)
    ensures Keys([e] + t) == [e.key] + Keys(t)
  {
  }

  lemma GetCons(e: Entry, t: seq<Entry>, k: string)
    ensures Get([e] + t, k) == if e.key == k then Some(e.value) else Get(t, k)
  {
    assert ([e] + t)[1..] == t;
  }

  /** `d[e.key] = e.value`: see `PutKeys` and `PutGet`. */
  function Put(t: seq<Entry>, e: Entry): seq<Entry>
  {
    if |t| == 0 then [e]
    else if t[0].key == e.key then [e] + t[1..]
    else [t[0]] + Put(t[1..], e)
  }

  /** Assigning an existing key keeps every key where it was; assigning a
      new key appends it at the end. */
  lemma {:induction false} PutKeys(t: seq<Entry>, e: Entry)
    ensures Keys(Put(t, e)) == if e.key in Keys(t) then Keys(t) else Keys(t) + [e.key]
  {
    if |t| > 0 {
      assert t == [t[0]] + t[1..];
      KeysCons(t[0], t[1..]);
      if t[0].key == e.key {
        KeysCons(e, t[1..]);
      } else {
        var u := Put(t[1..], e);
        PutKeys(t[1..], e);
        KeysCons(t[0], u);
        assert e.key in Keys(t) <==> e.key in Keys(t[1..]);
        if e.key !in Keys(t[1..]) {
          assert [t[0].key] + (Keys(t[1..]) + [e.key]) == ([t[0].key] + Keys(t[1..])) + [e.key];
        }
      }
    }
  }

  /** After the assignment the key reads back the new value, and every other
      key reads what it read before. */
  lemma {:induction false} PutGet(t: seq<Entry>, e: Entry, k: string)
    ensures Get(Put(t, e), k) == if k == e.key then Some(e.value) else Get(t, k)
  {
    if |t| > 0 {
      assert t == [t[0]] + t[1..];
      GetCons(t[0], t[1..], k);
      if t[0].key == e.key {
        GetCons(e, t[1..], k);
      } else {
        PutGet(t[1..], e, k);
        GetCons(t[0], Put(t[1..], e), k);
      }
    }
  }

  /** The dict obtained by assigning the pairs one after the other. */
  function FromPairs(pairs: seq<Entry>): seq<Entry>
  {
    if |pairs| == 0 then []
    else Put(FromPairs(pairs[..|pairs| - 1]), pairs[|pairs| - 1])
  }

  /** The value of the last pair with key `k`, scanning from the end. */
  function LastValue(pairs: seq<Entry>, k: string): Option<string>
  {
    if |pairs| == 0 then None
    else if pairs[|pairs| - 1].key == k then Some(pairs[|pairs| - 1].value)
    else LastValue(pairs[..|pairs| - 1], k)
  }

  /** Later assignments overwrite earlier ones: a key ends up with the value
      of its last pair, and a key that no pair mentions is absent. */
  lemma {:induction false} FromPairsLastWins(pairs: seq<Entry>, k: string)
    ensures Get(FromPairs(pairs), k) == LastValue(pairs, k)
  {
    if |pairs| > 0 {
      FromPairsLastWins(pairs[..|pairs| - 1], k);
      PutGet(FromPairs(pairs[..|pairs| - 1]), pairs[|pairs| - 1], k);
    }
  }

  lemma HasKeyId(ks: seq<string>, k: string)
    ensures Dedup.HasKey(ks, Id, k) <==> k in ks
  {
    if k in ks {
      var i :| 0 <= i < |ks| && ks[i] == k;
      assert Id(ks[i]) == k;
    }
  }

  /** Re-assigning a key does not move it: the keys are iterated in the
      order of their first assignment. */
  lemma {:induction false} FromPairsOrder(pairs: seq<Entry>)
    ensures Keys(FromPairs(pairs)) == Dedup.KeepFirst(Keys(pairs), Id)
  {
    if |pairs| > 0 {
      var init, e := pairs[..|pairs| - 1], pairs[|pairs| - 1];
      FromPairsOrder(init);
      var ks := Keys(pairs);
      assert ks[..|ks| - 1] == Keys(init);
      assert ks[|ks| - 1] == e.key;
      HasKeyId(Dedup.KeepFirst(Keys(init), Id), e.key);
      PutKeys(FromPairs(init), e);
    }
  }

  /** Every key of a dict built from pairs is mentioned once only. */
  lemma FromPairsUniqueKeys(pairs: seq<Entry>)
    ensures forall i, j :: 0 <= i < j < |FromPairs(pairs)| ==>
              FromPairs(pairs)[i].key != FromPairs(pairs)[j].key
  {
    FromPairsOrder(pairs);
    var ks := Keys(FromPairs(pairs));
    assert Dedup.UniqueKeys(ks, Id);
    forall i, j | 0 <= i < j < |FromPairs(pairs)|
      ensures FromPairs(pairs)[i].key != FromPairs(pairs)[j].key
    {
      assert Id(ks[i]) != Id(ks[j]);
    }
  }

  /** The (member, name) pairs of one group, in list order. */
  function Pairs(g: Group): (r: seq<Entry>)
    ensures |r| == |g.members|
    ensures forall i :: 0 <= i < |r| ==> r[i] == Entry(g.members[i], g.name)
  {
    seq(|g.members|, i requires 0 <= i < |g.members| => Entry(g.members[i], g.name))
  }

  /** The pairs `(member, name) for name, members in groups for member in
      members`, in the order the nested comprehension visits them. */
  function Flatten(groups: seq<Group>): seq<Entry>
  {
    if |groups| == 0 then []
    else Flatten(groups[..|groups| - 1]) + Pairs(groups[|groups| - 1])
  }

  /** Reference answer: the name of the last group listing `k`. */
  function LastGroupWith(groups: seq<Group>, k: string): Option<string>
  {
    if |groups| == 0 then None
    else if k in groups[|groups| - 1].members then Some(groups[|groups| - 1].name)
    else LastGroupWith(groups[..|groups| - 1], k)
  }

  /** The last pair for `k` in a concatenation lies in the second part when
      that part mentions `k` at all. */
  lemma {:induction false} LastValueConcat(a: seq<Entry>, b: seq<Entry>, k: string)
    ensures LastValue(a + b, k) == if LastValue(b, k).Some? then LastValue(b, k) else LastValue(a, k)
  {
    if |b| == 0 {
      assert a + b == a;
    } else {
      assert (a + b)[..|a + b| - 1] == a + b[..|b| - 1];
      LastValueConcat(a, b[..|b| - 1], k);
    }
  }

  /** Within one group, `k` is paired with the group's name exactly when the
      group lists it. */
  lemma {:induction false} LastValuePairs(g: Group, k: string)
    ensures LastValue(Pairs(g), k) == if k in g.members then Some(g.name) else None
    decreases |g.members|
  {
    if |g.members| > 0 {
      var g' := Group(g.name, g.members[..|g.members| - 1]);
      assert Pairs(g)[..|Pairs(g)| - 1] == Pairs(g');
      LastValuePairs(g', k);
      assert g.members == g'.members + [g.members[|g.members| - 1]];
    }
  }

  /** Flattening then assigning in order maps each member to the LAST group
      that lists it. */
  lemma {:induction false} FlattenLastGroup(groups: seq<Group>, k: string)
    ensures LastValue(Flatten(groups), k) == LastGroupWith(groups, k)
  {
    if |groups| > 0 {
      var init, g := groups[..|groups| - 1], groups[|groups| - 1];
      LastValueConcat(Flatten(init), Pairs(g), k);
      LastValuePairs(g, k);
      FlattenLastGroup(init, k);
    }
  }
}

=== FILE: pystr.dfy ===
/** The handful of Python `str` operations the transaction loader is built
    on, written out with Python's exact semantics: `find` answers -1 when the
    pattern is absent, slicing normalises negative bounds and clamps, `strip`
    removes a character set from both ends, and `lower` is ASCII-only. */
module PyStr {

  /** The character set of `strip(' -.')`, used by every description rule. */
  const StripChars: set<char> := {' ', '-', '.'}

  // ---------------------------------------------------------------------
  // lower()
  // ---------------------------------------------------------------------

  /** ASCII lowering of one character; every other character is kept. */
  function LowerChar(c: char): (r: char)
    ensures 'A' <= c <= 'Z' ==> 'a' <= r <= 'z' && r as int == c as int + 32
    ensures !('A' <= c <= 'Z') ==> r == c
  {
    if 'A' <= c <= 'Z' then (c as int + 32) as char else c
  }

  /** `s.lower()`, restricted to ASCII so that it keeps the length. */
  function Lower(s: string): (r: string)
    ensures |r| == |s|
    ensures forall i :: 0 <= i < |s| ==> r[i] == LowerChar(s[i])
  {
    seq(|s|, i requires 0 <= i < |s| => LowerChar(s[i]))
  }

  /** Lowering commutes with taking a slice. */
  lemma LowerSlice(s: string, a: int, b: int)
    requires 0 <= a <= b <= |s|
    ensures Lower(s[a..b]) == Lower(s)[a..b]
  {
  }

  /** Lowering never moves a character into or out of the strip set. */
  lemma LowerKeepsStripChars(c: char)
    ensures c in StripChars <==> LowerChar(c) in StripChars
  {
  }

  // ---------------------------------------------------------------------
  // find() and the `in` operator
  // ---------------------------------------------------------------------

  /** `pat` occurs in `s` starting at index `i`. */
  predicate OccursAt(s: string, pat: string, i: int)
  {
    0 <= i && i + |pat| <= |s| && s[i..i + |pat|] == pat
  }

  /** `pat` is a substring of `s` (independent of how `find` searches). */
  ghost predicate Contains(s: string, pat: string)
  {
    exists i :: OccursAt(s, pat, i)
  }

  /** A substring is no longer than its string, and one of full length is
      the string itself. */
  lemma ContainsLength(s: string, pat: string)
    requires Contains(s, pat)
    ensures |pat| <= |s|
    ensures |pat| == |s| ==> pat == s
  {
    var i :| OccursAt(s, pat, i);
    assert |pat| == |s| ==> i == 0 && s[0..|s|] == s;
  }

  /** `i` is the leftmost occurrence of `pat` in `s`. */
  ghost predicate FirstAt(s: string, pat: string, i: int)
  {
    OccursAt(s, pat, i) && forall j :: 0 <= j < i ==> !OccursAt(s, pat, j)
  }

  /** Left-to-right scan for `pat` from index `i` on. */
  function FindFrom(s: string, pat: string, i: nat): (r: int)
    decreases |s| - i
    ensures r == -1 || (i <= r && OccursAt(s, pat, r))
    ensures r == -1 ==> forall j :: i <= j ==> !OccursAt(s, pat, j)
    ensures r != -1 ==> forall j :: i <= j < r ==> !OccursAt(s, pat, j)
  {
    if i + |pat| > |s| then -1
    else if s[i..i + |pat|] == pat then i
    else FindFrom(s, pat, i + 1)
  }

  /** `s.find(pat)`: the leftmost occurrence, or -1 when there is none. */
  function Find(s: string, pat: string): (r: int)
    ensures r == -1 <==> !Contains(s, pat)
    ensures r != -1 ==> FirstAt(s, pat, r)
    ensures -1 <= r <= |s| - |pat| || r == -1
  {
    FindFrom(s, pat, 0)
  }

  /** `pat in s`. */
  function In(pat: string, s: string): (b: bool)
    ensures b <==> Contains(s, pat)
  {
    Find(s, pat) >= 0
  }

  /** The leftmost occurrence is unique, so it is what `find` reports. */
  lemma FindIsFirst(s: string, pat: string, i: int)
    requires FirstAt(s, pat, i)
    ensures Find(s, pat) == i
  {
    assert Contains(s, pat);
  }

  /** A substring of a substring is a substring. */
  lemma ContainsTransitive(s: string, t: string, u: string)
    requires Contains(s, t) && Contains(t, u)
    ensures Contains(s, u)
  {
    var i :| OccursAt(s, t, i);
    var j :| OccursAt(t, u, j);
    forall k | 0 <= k < |u|
      ensures s[i + j + k] == u[k]
    {
      assert u[k] == t[j + k] == s[i..i + |t|][j + k];
    }
    assert s[i + j..i + j + |u|] == u;
    assert OccursAt(s, u, i + j);
  }

  /** Every character of a substring is a character of the string. */
  lemma ContainsChars(s: string, t: string)
    requires Contains(s, t)
    ensures forall c :: c in t ==> c in s
  {
    var i :| OccursAt(s, t, i);
    forall c | c in t
      ensures c in s
    {
      var k :| 0 <= k < |t| && t[k] == c;
      assert s[i + k] == t[k];
    }
  }

  /** Every slice of a string is a substring of it. */
  lemma SliceContained(s: string, a: int, b: int)
    requires 0 <= a <= b <= |s|
    ensures Contains(s, s[a..b])
  {
    assert OccursAt(s, s[a..b], a);
  }

  // ---------------------------------------------------------------------
  // Slicing: s[start:end]
  // ---------------------------------------------------------------------

  /** Python's normalisation of a slice bound against a length `n`: a
      negative bound counts from the end, then the bound is clamped. */
  function SliceIndex(i: int, n: nat): (r: nat)
    ensures r <= n
    ensures 0 <= i <= n ==> r == i
    ensures i < 0 && i + n >= 0 ==> r == i + n
    ensures i > n ==> r == n
    ensures i + n < 0 ==> r == 0
  {
    var j := i + n;
    if i < 0 then (if j < 0 then 0 else j)
    else if i > n then n
    else i
  }

  /** `s[start:end]`; empty when the normalised start is not before the
      normalised end. */
  function Slice(s: string, start: int, end: int): (r: string)
    ensures 0 <= start <= end <= |s| ==> r == s[start..end]
    ensures SliceIndex(start, |s|) >= SliceIndex(end, |s|) ==> r == []
    ensures SliceIndex(start, |s|) < SliceIndex(end, |s|) ==>
              r == s[SliceIndex(start, |s|)..SliceIndex(end, |s|)]
    ensures |r| <= |s|
    ensures Contains(s, r)
  {
    var a, b := SliceIndex(start, |s|), SliceIndex(end, |s|);
    if a < b then
      SliceContained(s, a, b);
      s[a..b]
    else
      assert OccursAt(s, [], 0);
      []
  }

  /** `s[start:]`, which Python reads as `s[start:len(s)]`. */
  function SliceFrom(s: string, start: int): (r: string)
    ensures 0 <= start <= |s| ==> r == s[start..]
    ensures Contains(s, r)
  {
    Slice(s, start, |s|)
  }

  /** A start of -1 (the `find` sentinel) selects only the last character. */
  lemma SliceFromMinusOne(s: string)
    requires |s| > 0
    ensures SliceFrom(s, -1) == [s[|s| - 1]]
  {
  }

  /** An end of -1 (the `find` sentinel) drops the last character. */
  lemma SliceToMinusOne(s: string, start: int)
    requires 0 <= start < |s|
    ensures Slice(s, start, -1) == s[start..|s| - 1]
  {
  }

  // ---------------------------------------------------------------------
  // strip(chars)
  // ---------------------------------------------------------------------

  /** Every character of `t` belongs to `cs`. */
  predicate AllIn(t: string, cs: set<char>)
  {
    forall k :: 0 <= k < |t| ==> t[k] in cs
  }

  /** Neither end of `t` belongs to `cs`. */
  predicate NoEdgeIn(t: string, cs: set<char>)
  {
    |t| > 0 ==> t[0] !in cs && t[|t| - 1] !in cs
  }

  /** `s.lstrip(cs)`. */
  function LStrip(s: string, cs: set<char>): (r: string)
    ensures |r| <= |s| && r == s[|s| - |r|..]
    ensures AllIn(s[..|s| - |r|], cs)
    ensures |r| > 0 ==> r[0] !in cs
  {
    if |s| > 0 && s[0] in cs then
      var r := LStrip(s[1..], cs);
      assert s[..|s| - |r|] == [s[0]] + s[1..][..|s| - 1 - |r|];
      r
    else s
  }

  /** `s.rstrip(cs)`. */
  function RStrip(s: string, cs: set<char>): (r: string)
    ensures |r| <= |s| && r == s[..|r|]
    ensures AllIn(s[|r|..], cs)
    ensures |r| > 0 ==> r[|r| - 1] !in cs
  {
    if |s| > 0 && s[|s| - 1] in cs then
      var r := RStrip(s[..|s| - 1], cs);
      assert s[|r|..] == s[..|s| - 1][|r|..] + [s[|s| - 1]];
      r
    else s
  }

  /** `r` is what remains of `s` once every leading and trailing character
      of `cs` is removed: a slice of `s`, bordered on both sides only by
      characters of `cs`, with neither of its own ends in `cs`. */
  ghost predicate StripOf(s: string, cs: set<char>, r: string)
  {
    NoEdgeIn(r, cs) && exists i :: StripsAt(s, cs, r, i)
  }

  /** `r` is the slice of `s` at `i`, bordered only by characters of `cs`. */
  predicate StripsAt(s: string, cs: set<char>, r: string, i: int)
  {
    && 0 <= i && i + |r| <= |s| && s[i..i + |r|] == r
    && AllIn(s[..i], cs) && AllIn(s[i + |r|..], cs)
  }

  /** Right-stripping the left-stripped string leaves a slice of `s` that
      only characters of `cs` border. */
  lemma LStripThenRStrip(s: string, cs: set<char>)
    ensures StripsAt(s, cs, RStrip(LStrip(s, cs), cs), |s| - |LStrip(s, cs)|)
    ensures NoEdgeIn(RStrip(LStrip(s, cs), cs), cs)
  {
    var l := LStrip(s, cs);
    var r := RStrip(l, cs);
    PrefixOfSuffix(s, cs, |s| - |l|, l, r);
  }

  /** A prefix `r` of the suffix `l == s[i..]`, followed in `l` only by
      characters of `cs`, is the slice of `s` at `i` and is followed in `s`
      by the same characters. */
  lemma PrefixOfSuffix(s: string, cs: set<char>, i: int, l: string, r: string)
    requires 0 <= i <= |s| && l == s[i..]
    requires |r| <= |l| && r == l[..|r|] && AllIn(l[|r|..], cs)
    requires AllIn(s[..i], cs) && (|r| > 0 ==> r[0] !in cs && r[|r| - 1] !in cs)
    ensures StripsAt(s, cs, r, i) && NoEdgeIn(r, cs)
  {
    assert s[i..i + |r|] == r;
    assert s[i + |r|..] == l[|r|..];
  }

  /** `s.strip(cs)`. */
  function Strip(s: string, cs: set<char>): (r: string)
    ensures StripOf(s, cs, r)
    ensures Contains(s, r)
  {
    StripsOfBothSides(s, cs);
    RStrip(LStrip(s, cs), cs)
  }

  /** Left- then right-stripping removes exactly the bordering characters
      of `cs` and leaves a substring. */
  lemma StripsOfBothSides(s: string, cs: set<char>)
    ensures StripOf(s, cs, RStrip(LStrip(s, cs), cs))
    ensures Contains(s, RStrip(LStrip(s, cs), cs))
  {
    var l := LStrip(s, cs);
    var r := RStrip(l, cs);
    var i := |s| - |l|;
    LStripThenRStrip(s, cs);
    assert StripsAt(s, cs, r, i);
    assert OccursAt(s, r, i);
  }

  /** A character outside `cs` cannot lie in a part made only of `cs`:
      it sits at or after the end of such a prefix ... */
  lemma NotInPrefix(s: string, cs: set<char>, i: int, k: int)
    requires 0 <= i <= |s| && AllIn(s[..i], cs)
    requires 0 <= k < |s| && s[k] !in cs
    ensures i <= k
  {
  }

  /** ... and before the start of such a suffix. */
  lemma NotInSuffix(s: string, cs: set<char>, e: int, k: int)
    requires 0 <= e <= |s| && AllIn(s[e..], cs)
    requires 0 <= k < |s| && s[k] !in cs
    ensures k < e
  {
  }

  /** Stripping leaves nothing exactly when every character is in `cs`. */
  lemma StripOfEmpty(s: string, cs: set<char>, r: string)
    requires StripOf(s, cs, r)
    ensures |r| == 0 <==> AllIn(s, cs)
  {
    var i :| StripsAt(s, cs, r, i);
    if |r| == 0 {
      forall k | 0 <= k < |s|
        ensures s[k] in cs
      {
        if k < i { assert s[..i][k] == s[k]; } else { assert s[i..][k - i] == s[k]; }
      }
    } else {
      assert s[i] == r[0];
    }
  }

  /** `StripOf` pins its result down completely: the specification admits a
      single answer for every input. */
  lemma StripOfUnique(s: string, cs: set<char>, r1: string, r2: string)
    requires StripOf(s, cs, r1) && StripOf(s, cs, r2)
    ensures r1 == r2
  {
    StripOfEmpty(s, cs, r1);
    StripOfEmpty(s, cs, r2);
    if |r1| > 0 {
      var i1 :| StripsAt(s, cs, r1, i1);
      var i2 :| StripsAt(s, cs, r2, i2);
      var e1, e2 := i1 + |r1|, i2 + |r2|;
      assert s[i1] == r1[0] && s[i2] == r2[0];
      assert s[e1 - 1] == r1[|r1| - 1] && s[e2 - 1] == r2[|r2| - 1];
      NotInPrefix(s, cs, i1, i2);
      NotInPrefix(s, cs, i2, i1);
      NotInSuffix(s, cs, e1, e2 - 1);
      NotInSuffix(s, cs, e2, e1 - 1);
      assert i1 == i2 && e1 == e2;
    }
  }

  /** Stripping twice is stripping once. */
  lemma StripIdempotent(s: string, cs: set<char>)
    ensures Strip(Strip(s, cs), cs) == Strip(s, cs)
  {
    var r := Strip(s, cs);
    assert r[0..|r|] == r;
    assert StripsAt(r, cs, r, 0);
    StripOfUnique(r, cs, r, Strip(r, cs));
  }

  /** When `s` neither starts with a character of `cs` nor has one at index
      `m - 1`, stripping keeps the first `m` characters intact. */
  lemma StripKeepsPrefix(s: string, cs: set<char>, m: int)
    requires 0 < m <= |s|
    requires s[0] !in cs && s[m - 1] !in cs
    ensures |Strip(s, cs)| >= m && Strip(s, cs)[..m] == s[..m]
  {
    var r := Strip(s, cs);
    var i :| StripsAt(s, cs, r, i);
  }

  // ---------------------------------------------------------------------
  // split(sep)[0]
  // ---------------------------------------------------------------------

  /** `s.split(sep)[0]`: everything before the first `sep`, or all of `s`. */
  function SplitHead(s: string, sep: char): (r: string)
    ensures |r| <= |s| && r == s[..|r|]
    ensures sep !in r
    ensures |r| < |s| ==> s[|r|] == sep
  {
    if |s| == 0 || s[0] == sep then []
    else [s[0]] + SplitHead(s[1..], sep)
  }

  // ---------------------------------------------------------------------
  // replace(old, new) for single characters
  // ---------------------------------------------------------------------

  /** `s.replace(c, '')`. */
  function RemoveAll(s: string, c: char): (r: string)
    ensures multiset(r) == multiset(s)[c := 0]
  {
    if |s| == 0 then []
    else
      assert s == [s[0]] + s[1..];
      (if s[0] == c then [] else [s[0]]) + RemoveAll(s[1..], c)
  }

  /** Removal works piece by piece: the characters that stay keep their
      order. */
  lemma {:induction false} RemoveAllConcat(a: string, b: string, c: char)
    ensures RemoveAll(a + b, c) == RemoveAll(a, c) + RemoveAll(b, c)
  {
    if |a| > 0 {
      assert (a + b)[0] == a[0];
      assert (a + b)[1..] == a[1..] + b;
      RemoveAllConcat(a[1..], b, c);
    } else {
      assert a + b == b;
    }
  }

  /** A character other than `c` survives in place, and `c` disappears. */
  lemma RemoveAllSingle(x: char, c: char)
    ensures RemoveAll([x], c) == if x == c then [] else [x]
  {
    assert [x][1..] == [];
  }

  /** `s.replace(a, b)`: every `a` becomes a `b`, the other characters
      keep their place. */
  function ReplaceAll(s: string, a: char, b: char): (r: string)
    ensures |r| == |s|
    ensures forall i :: 0 <= i < |s| ==> r[i] == if s[i] == a then b else s[i]
  {
    seq(|s|, i requires 0 <= i < |s| => if s[i] == a then b else s[i])
  }

  /** For `a != b`, the count of `a` moves onto `b` and every other count is
      kept. */
  lemma {:induction false} ReplaceAllCounts(s: string, a: char, b: char)
    requires a != b
    ensures multiset(ReplaceAll(s, a, b))[a] == 0
    ensures multiset(ReplaceAll(s, a, b))[b] == multiset(s)[b] + multiset(s)[a]
    ensures forall x :: x != a && x != b ==> multiset(ReplaceAll(s, a, b))[x] == multiset(s)[x]
  {
    if |s| > 0 {
      var t := s[1..];
      var c := if s[0] == a then b else s[0];
      assert multiset(ReplaceAll(s, a, b)) == multiset{c} + multiset(ReplaceAll(t, a, b)) by {
        ReplaceAllCons(s, a, b);
      }
      assert multiset(s) == multiset{s[0]} + multiset(t) by {
        assert s == [s[0]] + t;
      }
      ReplaceAllCounts(t, a, b);
    }
  }

  /** `replace` works on the first character and then on the rest. */
  lemma ReplaceAllCons(s: string, a: char, b: char)
    requires |s| > 0
    ensures ReplaceAll(s, a, b) == [if s[0] == a then b else s[0]] + ReplaceAll(s[1..], a, b)
  {
  }

  // ---------------------------------------------------------------------
  // str(int)
  // ---------------------------------------------------------------------

  predicate IsDigit(c: char)
  {
    '0' <= c <= '9'
  }

  function DigitChar(d: int): (c: char)
    requires 0 <= d < 10
    ensures IsDigit(c) && c as int - '0' as int == d
  {
    (d + '0' as int) as char
  }

  /** Decimal digits of `n`, without leading zeros. */
  function NatToString(n: nat): (r: string)
    ensures |r| > 0
    ensures forall k :: 0 <= k < |r| ==> IsDigit(r[k])
  {
    if n < 10 then [DigitChar(n)] else NatToString(n / 10) + [DigitChar(n % 10)]
  }

  /** `str(n)` for an integer. */
  function IntToString(n: int): (r: string)
    ensures |r| > 0
    ensures (r[0] == '-') <==> n < 0
  {
    if n < 0 then "-" + NatToString(-n) else NatToString(n)
  }

  /** Value of a string of decimal digits (`int(s)` on such a string). */
  function ParseNat(s: string): int
  {
    if |s| == 0 then 0
    else ParseNat(s[..|s| - 1]) * 10 + (s[|s| - 1] as int - '0' as int)
  }

  /** `int(s)` on an optionally signed string of decimal digits. */
  function ParseInt(s: string): int
  {
    if |s| > 0 && s[0] == '-' then -ParseNat(s[1..]) else ParseNat(s)
  }

  lemma {:induction false} NatToStringRoundTrip(n: nat)
    ensures ParseNat(NatToString(n)) == n
  {
    if n >= 10 {
      var s := NatToString(n);
      assert s[..|s| - 1] == NatToString(n / 10);
      NatToStringRoundTrip(n / 10);
    }
  }

  /** `str` loses nothing: parsing the decimal string gives the integer back. */
  lemma IntToStringRoundTrip(n: int)
    ensures ParseInt(IntToString(n)) == n
  {
    if n < 0 {
      assert IntToString(n)[1..] == NatToString(-n);
      NatToStringRoundTrip(-n);
    } else {
      NatToStringRoundTrip(n);
    }
  }

  /** Hence two different integers never share a decimal string. */
  lemma IntToStringInjective(m: int, n: int)
    requires IntToString(m) == IntToString(n)
    ensures m == n
  {
    IntToStringRoundTrip(m);
    IntToStringRoundTrip(n);
  }
}

=== FILE: transactions.dfy ===
/** The records the loader works on: a raw line of the bank's CSV export
    and a normalised transaction (one row of the `Transactions` sheet). */
module Transactions {
  import opened Wrappers
  import opened OrderedDict

  type MonthNum = m: int | 1 <= m <= 12 witness 1
  type DayNum = d: int | 1 <= d <= 31 witness 1

  /** A calendar day, as pandas parses `DATA` and `VALUTA` (day first). */
  datatype Date = Date(year: int, month: MonthNum, day: DayNum)

  /** `a` is not after `b`. */
  predicate DateLe(a: Date, b: Date)
  {
    a.year < b.year
    || (a.year == b.year && a.month < b.month)
    || (a.year == b.year && a.month == b.month && a.day <= b.day)
  }

  /** One line of the CSV export. `DARE` (debit) and `AVERE` (credit) are
      the comma-decimal strings of the file, `None` when the cell is empty;
      `CAUSALE ABI` is the numeric reason code, `None` when missing. */
  datatype RawRow = RawRow(
    booking: Date,
    value: Date,
    debit: Option<string>,
    credit: Option<string>,
    reasonCode: Option<int>,
    description: string)

  /** One normalised transaction. `amount` (IMPORTO) is in cents, `None`
      standing for pandas' NaN when both DARE and AVERE were empty;
      `category` (CATEGORIA) is `None` until some rule assigns it. */
  datatype Transaction = Transaction(
    booking: Date,
    value: Date,
    amount: Option<int>,
    reason: string,
    description: string,
    desc: string,
    category: Option<string>,
    id: string)

  /** The three JSON taxonomies: ABI code -> label (`causaliABI.json`),
      category -> keywords (`expensiveCategories.json`) and category ->
      transaction ids (`oneOffTransactions.json`), each in file order. */
  datatype Taxonomies = Taxonomies(
    abiLabels: map<string, string>,
    expenseCategories: seq<Group>,
    oneOffs: seq<Group>)

  /** The two exceptions the loader raises. */
  datatype Error =
    | MissingAbiCode(code: string)
    | EmptyDataset
      // `KeyError: 'ID'`: a column read before the loader created it
    | MissingIdColumn

  /** `IMPORTO < 0`; a NaN amount compares false. */
  predicate IsOutflow(t: Transaction)
  {
    t.amount.Some? && t.amount.value < 0
  }
}

=== FILE: wrappers.dfy ===
/** Failure-compatible result types shared by the whole model. */
module Wrappers {

  /** A value that may be missing (pandas' NaN / a JSON key that is absent). */
  datatype Option<+T> = None | Some(value: T)

  /** Either a value or the error that aborted the computation. */
  datatype Result<+R, +E> = Success(value: R) | Failure(error: E) {

    predicate IsFailure() {
      Failure?
    }

    function PropagateFailure<U>(): Result<U, E>
      requires Failure?
    {
      Failure(error)
    }

    function Extract(): R
      requires Success?
    {
      value
    }
  }
}
